=== FILE: README.md ===
# Who-am-I lobby servers, modelled in Dafny

Two small Node.js WebSocket servers host the party game "Wer bin ich?"
("Who am I?"). Each player is given a character name by another player and
then has to guess who they are. A lobby goes through three phases:

1. `lobby`: players join.
2. `assignment`: characters are handed out.
3. `game`: turns rotate and players reveal their characters.

The two servers share this state machine:

- `server.js` (the **Ring** variant): characters are handed out in a ring.
  Player i gives a character to player i + 1, and the last player gives one
  to the first.
- `wer-bin-ich/server.js` (the **Draw** variant): every player names their
  own character, and a random draw picks whom to announce next.

The model covers the whole message handler of both servers:

- every inbound message type: `createLobby`, `joinLobby`, `leaveLobby`,
  `startAssignment`, `assignCharacter`, `nextPlayer`, `revealCharacter`,
  `restartGame` and `restoreState`;
- the socket `close` listener.

Each handler is a pure function. It maps the lobby store, the socket's
fields (`lobbyId`, `playerName`, `displayName`) and the decoded message to a
new store, new socket fields and the list of events sent.

Some handler paths throw a JavaScript `TypeError`. Examples are reading
`.displayName` of a `find` that found nothing, and `players[0].name` on an
empty list. These paths are modelled as the outcome `Fault`. In the model
only the Ring variant can reach one. Lobby ids that name a property every
JavaScript object inherits, such as `constructor`, make both servers throw;
the model treats them as unknown ids (see "Left out").

`Math.random()` is a parameter. `Server.Step` dispatches one message.
`Server.Run` folds many messages, on many sockets, over a world that starts
with no lobbies.

Modules:

- `Names` (names.dfy): the name key, `trim()` then `toLowerCase()`.
- `Assoc` (assoc.dfy): the `assignments` object as an insertion-ordered
  association list.
- `Roster` (roster.dfy): the player list.
- `RingAssignment` (ring.dfy): the ring built by `startAssignment` in
  server.js.
- `RandomDraw` (draw.dfy): the draw in `Math.floor(Math.random() * n)`.
- `Session` (session.dfy): lobbies, sockets, messages, events and the lobby
  invariant.
- `Handlers` (handlers.dfy): one function per message type.
- `Server` (server.dfy): dispatch and runs.
- `Rounds` (rounds.dfy): properties of message sequences. These cover a
  complete assignment round, a round of turns, and a repeated reconnect.

The lobby invariant `Session.Valid` says that every lobby holds its host,
has at least one player, has no name key twice, and has no key twice in its
assignment table. Every handler preserves it.

## Model

| member | source | states |
|---|---|---|
| Names.Leading | server.js:27 | the count of leading whitespace: every character before it is whitespace and the one at it is not |
| Names.Trim | server.js:27 | the result has no ASCII whitespace at either end, and a string with none is returned unchanged |
| Names.TrimSlice | server.js:27 | the trim is the slice of the name that starts after its leading whitespace, and everything behind that slice is whitespace |
| Names.TrimSpec | server.js:27 | the trim is a slice with only whitespace before and behind it and none at its own ends |
| Names.TrimUnique | server.js:27 | any slice with only whitespace outside it and none at its own ends is the trim, so these bounds determine it |
| Names.Lower | server.js:28 | every character is mapped on its own: an upper-case ASCII letter becomes its lower-case letter and any other character stays; a string without upper-case letters is unchanged |
| Names.Normalize | server.js:27-28 | a name key has no surrounding whitespace, no upper-case ASCII letter, and as many characters as the trimmed name |
| Names.NormalizeSpec | server.js:27-28 | character i of the key is the lowered character i places after the name's leading whitespace |
| Names.NormalizeIdempotent | wer-bin-ich/server.js:27 | normalising a key again yields the same key, so a key typed back in names the same player |
| Roster.IndexOf | server.js:148 | `findIndex` returns -1 exactly when no player has the key; otherwise it returns the first position holding the key |
| Roster.IndexOfCurrent | server.js:148 | the lookup of `currentPlayer` is -1 exactly when it is null or absent; otherwise it is the one position whose key is the current player |
| Roster.Find | server.js:116 | `find` yields a player exactly when the key is present, that player carries the key, and with unique keys it is the player at the key's position |
| Roster.WithoutCounts | server.js:244 | the filter drops every entry with the leaving key and keeps every other entry with its multiplicity |
| Roster.WithoutAppend | server.js:244 | filtering a concatenation concatenates the filtered parts, so the kept players stay in their order |
| Roster.WithoutOne | server.js:244 | a single player is dropped exactly when it carries the leaving key |
| Roster.WithoutKeys | server.js:244 | after the filter a key is present exactly when it was present before and is not the leaving key |
| Roster.WithoutUnique | wer-bin-ich/server.js:72 | the filter keeps keys unique |
| Roster.AppendFresh | server.js:56-60 | appending a player whose key is new keeps keys unique and adds exactly that key |
| Roster.UniqueOccursOnce | server.js:204-206 | with unique keys a present key occurs exactly once and an absent key never occurs |
| Assoc.Get | server.js:109 | a lookup succeeds exactly when the key has an entry, and returns that entry's value |
| Assoc.Put | server.js:96 | storing keeps the existing keys in their order, appends a new key at the end, and leaves the key defined |
| Assoc.PutGet | server.js:96 | after storing v under k, k reads v and every other key reads what it read before |
| Assoc.Delete | server.js:121 | after `delete` the key is gone, exactly the other entries remain, and every other key reads as before |
| Assoc.DeleteAt | server.js:121 | deleting a present key cuts exactly its entry out and keeps the other entries in their order, which `Object.keys(...)[0]` then reads |
| RingAssignment.RingAssignments | server.js:92-97 | after the loop every player's key has an entry, and no key has two |
| RingAssignment.BuildMembers | server.js:93-96 | every entry the loop stores pairs two players of the lobby: the assigner and the assignee are both present |
| RingAssignment.RingIsSpec | server.js:93-97 | with unique keys the loop builds exactly the table whose entry i is (player i, player (i + 1) mod n) |
| RingAssignment.SuccessorIsMod | server.js:95 | the ring successor of i is (i + 1) mod n |
| RingAssignment.RingSuccessor | server.js:95-96 | looking up player i's key yields player (i + 1) mod n's key |
| RingAssignment.RingSingleton | server.js:93-96 | a lone player is assigned to themself |
| RingAssignment.RingNoSelfAssignment | server.js:93-96 | with two or more players nobody is assigned to themself |
| RingAssignment.RingIsBijection | server.js:93-97 | distinct assigners have distinct assignees, and every player is somebody's assignee |
| RingAssignment.FollowRing | server.js:93-97 | for k up to n, following the assignments k times from player i reaches player (i + k) mod n |
| RingAssignment.RingSingleCycle | server.js:93-97 | the assignment is a single cycle through all players: everybody reaches everybody in fewer than n steps and is back after exactly n |
| RandomDraw.DrawIndex | wer-bin-ich/server.js:83 | the floored draw is a valid index of a non-empty list |
| RandomDraw.Pick | wer-bin-ich/server.js:108 | the drawn key is `undefined` exactly when nobody is in the lobby, and is otherwise a player's key |
| RandomDraw.DrawReachesEveryIndex | wer-bin-ich/server.js:83 | every player can be drawn: the random value j / n yields index j |
| Session.Entrant | server.js:27-30 | a typed-in name yields the player whose key is the normalised name; Ring shows the trimmed name and Draw shows the key |
| Session.EntrantKey | server.js:27-30 | in both variants the shown name normalises back to the player's key |
| Session.ImageOrDefault | server.js:112 | the stored image is the sent URL when it is truthy and the placeholder icon otherwise; it is never empty |
| Handlers.HandleCreateLobby | server.js:25-50 | adds exactly one fresh lobby hosted by the creator's key, with the creator as its only player, the phase `lobby` and nothing assigned; binds the socket and answers `lobbyCreated` to the sender only |
| Handlers.HandleJoinLobby | server.js:51-74 | answers "not found" for an unknown lobby and "name taken" for a present key, changing nothing; otherwise appends the player and nothing else, binds the socket and broadcasts `playerJoined` |
| Handlers.HandleDepart | server.js:239-251 | the player list is filtered by the leaving key, keeping the others in order and with their multiplicity; when the host leaves, that filtered list is announced with `lobbyDeleted` and exactly their lobby is deleted; otherwise only the player list changes and the filtered list is broadcast |
| Handlers.HandleStartAssignment | server.js:87-105 | only the host acts; the phase becomes `assignment` and nothing else but the assignments changes; Ring stores the full ring and announces player 0's assignee, Draw announces a drawn player; an empty lobby faults in Ring |
| Handlers.HandleAssignRing | server.js:106-145 | only a pending assigner acts; it faults when the assignee has left and succeeds when every assignee is present; it touches no other lobby and keeps the lobby invariant |
| Handlers.AssignRingEffect | server.js:106-145 | a successful submission stores the character and image under the assignee, removes exactly the sender's entry and announces `characterAssigned`; with no entry left it starts the game with player 0 and sends `gameStarted`; otherwise it sends `assignmentStarted` for the first remaining entry's assignee exactly when that entry's key is not empty |
| Handlers.HandleAssignDraw | wer-bin-ich/server.js:86-111 | stores the character and image under the sender and broadcasts `characterAssigned` with the character, the stored image and the players; the game starts with player 0 exactly when there are as many characters as players, and `gameStarted` then carries that player, their character, the players and the images; otherwise a drawn player is announced |
| Handlers.TurnAfter | server.js:149 | the next index is 0 after a missing current player (-1), otherwise the ring successor |
| Handlers.NextInTurn | server.js:148-150 | the next player is player 0 when the current player is null or absent, otherwise the player after the current one, wrapping around |
| Handlers.HandleNextPlayer | server.js:146-160 | an unknown lobby is left alone; it faults exactly for an empty lobby in Ring; the lobby invariant is kept |
| Handlers.NextPlayerEffect | server.js:146-160 | in a lobby with players the current player becomes the next in turn, nothing else changes, and one `nextTurn` carries that player, their character and the reveals so far |
| Handlers.HandleReveal | server.js:161-181 | appends the normalised name to the reveal list and changes nothing else; `gameEnded` is sent exactly when the list is as long as the player list; in Ring it faults when the current player is null or absent |
| Handlers.HandleRestart | server.js:182-198 | only the host acts; back to phase `lobby` with characters, images, reveals and current player cleared; Ring clears the assignments and Draw keeps them; the lobby is re-announced |
| Handlers.Rejoin | server.js:204-206 | a present key leaves the list as it is, an absent one is appended; keys stay unique and exactly the new key is added |
| Handlers.HandleRestore | server.js:199-236 | an unknown lobby gets "not found"; otherwise the player is appended only when their key is absent, the socket is re-bound, and a snapshot plus `playerJoined` are sent; in Ring it faults exactly when a truthy current player is neither present nor the restoring player |
| Server.Step | server.js:25-252 | every message keeps the lobby invariant; Draw never faults; in Ring only `assignCharacter`, `revealCharacter` and `restoreState` can fault from a valid store; an unknown type changes nothing |
| Server.Run | server.js:20-252 | with no messages nothing changes; events are only ever appended to those sent; a socket no message arrives on keeps its fields; a socket whose last message is `close` is forgotten |
| Server.RunAppend | server.js:20-252 | handling two batches is handling the first and then the second from the state it leaves; a throw ends the run |
| Server.RunPreservesValid | server.js:25-252 | every run of messages from a valid store ends in a valid store |
| Server.DrawRunNeverFaults | wer-bin-ich/server.js:25-209 | no sequence of messages makes a Draw handler throw |
| Server.ReachableLobbiesHoldTheirHost | server.js:239-252 | in every state reachable from start-up, every lobby holds its host, is non-empty and has unique keys |
| Rounds.NoKeysIsEmpty | server.js:122 | `Object.keys(assignments).length === 0` holds exactly when the table is empty |
| Rounds.RingAssignStep | server.js:108-124 | one pending assigner's message, with or without an image URL, succeeds, removes exactly that assigner's entry and keeps the players |
| Rounds.RingDrain | server.js:106-145 | once every pending assigner has sent their character once, in any order and each with any image URL, the game has started with player 0 and no entry is left |
| Rounds.EmptyAssigneeStep | server.js:108-110 | an entry whose assignee is the empty key is never pending: every submission faults or keeps that entry and the phase |
| Rounds.EmptyAssigneeStalls | server.js:106-122 | so no sequence of submissions, whatever their senders, characters and image URLs, starts the game while such an entry exists |
| Rounds.RingKeys | server.js:93-96 | the ring has exactly one entry per player key |
| Rounds.RingStartStep | server.js:87-105 | the host's start succeeds and stores the ring |
| Rounds.RingRoundStartsGame | server.js:87-145 | after the start, one message from every player, in any order and each with any image URL, starts the game with player 0 and keeps the player list |
| Rounds.DrawDrain | wer-bin-ich/server.js:97-99 | once every remaining player has named their character, each message with its own image URL and its own random draw, the game has started with player 0, and the character object has as many keys as there are players |
| Rounds.DrawRoundStartsGame | wer-bin-ich/server.js:80-111 | after the start, one message from every player, each with its own image URL and random draw, starts the game with player 0 |
| Rounds.TurnsUnfold | server.js:146-160 | the first of k turns moves the turn once, and the remaining turns start from the state it leaves |
| Rounds.TurnsFollow | server.js:146-160 | k `nextPlayer` messages change only the current player, which is the k-th next in turn |
| Rounds.TurnStep | server.js:148-150 | with unique keys, the turn after each player's turn is the turn of the player after them, wrapping after the last |
| Rounds.TurnsRotate | server.js:148-150 | for k up to n, k turns after player i it is player (i + k) mod n's turn |
| Rounds.FullRoundReturns | server.js:148-150 | n turns in an n-player lobby give the lobby back unchanged |
| Rounds.TwoPlayersAlternate | server.js:148-150 | with two players each turn passes to the other player, and two turns come back |
| Rounds.RestoreFirst | server.js:203-206 | a restore that does not trip over a missing current player succeeds; afterwards the store is still valid, the restoring key is present, the current player is unchanged and, in Ring, a truthy current player is present |
| Rounds.RestoreAgain | server.js:203-206 | restoring a present key, when the current player is present or not truthy, succeeds and changes no lobby |
| Rounds.RestoreTwiceKeepsOneEntry | server.js:199-236 | a second identical restore succeeds, changes nothing more, and the key occurs exactly once |

## Left out

- HTTP serving, the `express` static files and the `ws` transport are not modelled. A socket is a number and a message arrives already decoded.
- JSON parsing and serialisation are not modelled. A message with a missing field, which would make `.trim()` throw, is not modelled either.
- Broadcast delivery is not modelled: the `readyState` filter and per-client sends. An event is recorded once, with its lobby id.
- Logging to the console is not modelled.
- Unicode is not modelled. `trim()` and `toLowerCase()` are modelled on ASCII whitespace and ASCII letters only.
- `Math.random()` is a parameter of each message. The string format of a lobby id (`toString(36)`) is not modelled. A fresh id that equals an existing one overwrites that lobby, as the code does.
- `Math.floor(Math.random() * n)` is computed over exact reals. Floating-point rounding is left out.
- JavaScript objects are not modelled in full. `lobbies`, `characters`, `imageUrls` and `assignments` are plain objects, so a key such as `constructor` or `__proto__` reads an inherited value. The model gives them no inherited keys: `lobbies` and the two per-player records are maps and `assignments` is an insertion-ordered table. `Object.keys` also lists integer-like keys first, which the table does not model.
- Server.DrawRunNeverFaults: holds for lobby ids that are own keys or absent. A message whose lobby id names an inherited property, such as `constructor`, passes the `if (lobbies[lobbyId])` test in wer-bin-ich/server.js:50-51 and 113-114 and then throws; the model answers as for an unknown id.
- The lobby field `currentCharacter` is never read, so it is not modelled.
- The state after a thrown exception is not modelled. A handler that throws has already made some of its writes, and the exception leaves the message listener. The model ends the run with `Fault` instead.
- Two invariants one might expect do not hold in the code: assignment entries may name players who have left, and the reveal list may hold the same name twice. The model follows the code, and the first of these is the cause of the Ring fault in `assignCharacter`.
- Handlers.NextPlayerEffect: the contract does not state the `currentDisplayName`, `players` and `imageUrls` fields of `nextTurn`.
- Handlers.HandleReveal: the contract does not state the current player, display name, character or images carried by `characterRevealed`.
- Handlers.HandleRestore: the snapshot is stated for the players, phase and host flag only. The characters, images, reveals and current-player fields are not stated.
- Handlers.HandleStartAssignment: the contract does not state `assignToDisplayName`.
- Rounds.RingRoundStartsGame: a player whose key is the empty string (a whitespace-only name) is excluded. The ring entry naming that key as assignee is never pending, because `""` is falsy at server.js:110, so the round never finishes; `Rounds.EmptyAssigneeStalls` states this.
- Rounds.RingDrain: only the store is stated, not the events sent during the round.

=== FILE: assoc.dfy ===
/** A JavaScript object used as a string-to-string dictionary, such as the
    `assignments` record of server.js: entries in insertion order (the order
    `Object.keys` reports), assignment to a present key updating it in place,
    assignment to a new key appending, and `delete` removing it. */
module Assoc {
  import opened Maybe

  type Table = seq<(string, string)>

  /** `k` is a property of the object. */
  predicate Defines(t: Table, k: string) {
    exists i :: 0 <= i < |t| && t[i].0 == k
  }

  /** The key of entry i. */
  function KeyOf(t: Table, i: int): string
    requires 0 <= i < |t|
  {
    t[i].0
  }

  /** Every key occurs at most once, as in a real object. The quantifier
      fires only on `KeyOf` terms; `WellFormedAt` states it for two given
      entries. */
  predicate WellFormed(t: Table) {
    forall i, j {:trigger KeyOf(t, i), KeyOf(t, j)} :: 0 <= i < j < |t| ==> KeyOf(t, i) != KeyOf(t, j)
  }

  /** Two distinct entries of a well-formed table have distinct keys. */
  lemma WellFormedAt(t: Table, i: int, j: int)
    requires WellFormed(t) && 0 <= i < |t| && 0 <= j < |t| && i != j
    ensures t[i].0 != t[j].0
  {
    if i < j {
      assert KeyOf(t, i) != KeyOf(t, j);
    } else {
      assert KeyOf(t, j) != KeyOf(t, i);
    }
  }

  /** The tail of a well-formed table is well-formed and does not repeat
      the head's key. */
  lemma WellFormedSplit(t: Table)
    ensures WellFormed(t) && |t| > 0 ==>
      WellFormed(t[1..]) && forall i :: 1 <= i < |t| ==> t[i].0 != t[0].0
  {
    if WellFormed(t) && |t| > 0 {
      var tail := t[1..];
      forall i, j | 0 <= i < j < |tail| ensures KeyOf(tail, i) != KeyOf(tail, j) {
        WellFormedAt(t, i + 1, j + 1);
      }
      forall i | 1 <= i < |t| ensures t[i].0 != t[0].0 {
        WellFormedAt(t, 0, i);
      }
    }
  }

  /** An entry whose key the table lacks can go in front. */
  lemma ConsWellFormed(e: (string, string), t: Table)
    requires WellFormed(t) && forall x :: x in t ==> x.0 != e.0
    ensures WellFormed([e] + t)
  {
    var r := [e] + t;
    forall i, j | 0 <= i < j < |r| ensures KeyOf(r, i) != KeyOf(r, j) {
      assert r[j] == t[j - 1];
      if i > 0 {
        assert r[i] == t[i - 1];
        WellFormedAt(t, i - 1, j - 1);
      }
    }
  }

  /** Well-formedness, stated for every pair of entries at once. */
  lemma WellFormedKeys(t: Table)
    ensures WellFormed(t) ==> forall i, j :: 0 <= i < |t| && 0 <= j < |t| && t[i].0 == t[j].0 ==> i == j
  {
    if WellFormed(t) {
      forall i, j | 0 <= i < |t| && 0 <= j < |t| && t[i].0 == t[j].0 ensures i == j {
        if i != j {
          WellFormedAt(t, i, j);
        }
      }
    }
  }

  function KeySet(t: Table): set<string> {
    set e | e in t :: e.0
  }

  /** Property read `t[k]`; `None` stands for `undefined`. */
  function Get(t: Table, k: string): (r: Option<string>)
    ensures r.Some? <==> Defines(t, k)
    ensures r.Some? ==> (k, r.value) in t
    ensures WellFormed(t) ==> forall i :: 0 <= i < |t| && t[i].0 == k ==> r == Some(t[i].1)
  {
    if |t| == 0 then None
    else
      WellFormedSplit(t);
      if t[0].0 == k then Some(t[0].1)
      else
        var r := Get(t[1..], k);
        assert forall i :: 1 <= i < |t| ==> t[i] == t[1..][i - 1];
        r
  }

  /** Index of the first entry with key `k`, or -1 when there is none. */
  function Position(t: Table, k: string): (i: int)
    ensures -1 <= i < |t|
    ensures i == -1 <==> !Defines(t, k)
    ensures 0 <= i ==> t[i].0 == k && forall j :: 0 <= j < i ==> t[j].0 != k
  {
    if |t| == 0 then -1
    else if t[0].0 == k then 0
    else
      var i := Position(t[1..], k);
      assert forall j :: 1 <= j < |t| ==> t[j] == t[1..][j - 1];
      if i == -1 then -1 else i + 1
  }

  /** Property write `t[k] = v`: a present key keeps its place, a new key
      goes last. */
  function Put(t: Table, k: string, v: string): (r: Table)
    ensures |r| == if Defines(t, k) then |t| else |t| + 1
    ensures forall i :: 0 <= i < |t| ==> r[i].0 == t[i].0
    ensures !Defines(t, k) ==> r == t + [(k, v)]
    ensures forall e :: e in r ==> e in t || e == (k, v)
    ensures Defines(r, k)
  {
    var i := Position(t, k);
    if i == -1 then
      var r := t + [(k, v)];
      assert r[|t|].0 == k;
      r
    else t[i := (k, v)]
  }

  /** A write is seen by later reads of the same key and by no other key. */
  lemma PutGet(t: Table, k: string, v: string)
    requires WellFormed(t)
    ensures WellFormed(Put(t, k, v))
    ensures Get(Put(t, k, v), k) == Some(v)
    ensures forall j :: j != k ==> Get(Put(t, k, v), j) == Get(t, j)
  {
    var r := Put(t, k, v);
    var p := Position(t, k);
    forall i, j | 0 <= i < j < |r| ensures KeyOf(r, i) != KeyOf(r, j) {
      if j < |t| {
        WellFormedAt(t, i, j);
      } else {
        assert r[j].0 == k && r[i] == t[i];
      }
    }
    assert r[if p == -1 then |t| else p] == (k, v);
    forall j | j != k
      ensures Get(r, j) == Get(t, j)
    {
      if Defines(t, j) {
        var q := Position(t, j);
        assert r[q] == t[q];
      } else {
        assert !Defines(r, j);
      }
    }
  }

  /** `delete t[k]`. */
  function Delete(t: Table, k: string): (r: Table)
    ensures !Defines(r, k)
    ensures forall e :: e in r <==> e in t && e.0 != k
    ensures forall j :: j != k ==> Get(r, j) == Get(t, j)
    ensures KeySet(r) == KeySet(t) - {k}
    ensures !Defines(t, k) ==> r == t
    ensures WellFormed(t) ==> WellFormed(r)
  {
    if |t| == 0 then []
    else
      assert forall i :: 1 <= i < |t| ==> t[i] == t[1..][i - 1];
      WellFormedSplit(t);
      if t[0].0 == k then Delete(t[1..], k)
      else
        var rest := Delete(t[1..], k);
        if WellFormed(t) then ConsWellFormed(t[0], rest); [t[0]] + rest
        else [t[0]] + rest
  }

  /** Deleting a present key from a well-formed table cuts out exactly its
      entry: the other entries keep their order, so `Object.keys` lists them
      as before. */
  lemma {:induction false} DeleteAt(t: Table, k: string)
    requires WellFormed(t) && Defines(t, k)
    ensures Delete(t, k) == t[..Position(t, k)] + t[Position(t, k) + 1..]
  {
    WellFormedSplit(t);
    var tail := t[1..];
    assert forall i :: 1 <= i < |t| ==> t[i] == tail[i - 1];
    if t[0].0 == k {
      assert !Defines(tail, k);
      assert t[1..] == tail;
    } else {
      var p := Position(tail, k);
      assert Position(t, k) == p + 1;
      DeleteAt(tail, k);
      CutTail(t, p);
    }
  }

  /** Cutting entry `p + 1` out of `t` is keeping the head and cutting entry
      `p` out of the tail. */
  lemma CutTail(t: Table, p: int)
    requires 0 <= p && p + 1 < |t|
    ensures t[..p + 1] + t[p + 2..] == [t[0]] + (t[1..][..p] + t[1..][p + 1..])
  {
    assert t[..p + 1] == [t[0]] + t[1..][..p];
    assert t[p + 2..] == t[1..][p + 1..];
  }
}

=== FILE: draw.dfy ===
/** The random draw of wer-bin-ich/server.js:83 and :108:
    `players[Math.floor(Math.random() * players.length)]`. The value of
    `Math.random()` is a parameter. */
module RandomDraw {
  import opened Maybe
  import opened Roster

  /** A value `Math.random()` can return: a real in [0, 1). */
  type Fraction = r: real | 0.0 <= r < 1.0

  /** `Math.floor(r * n)`. */
  function DrawIndex(r: Fraction, n: nat): (i: int)
    ensures n > 0 ==> 0 <= i < n
    ensures n == 0 ==> i == 0
  {
    var x := r * n as real;
    assert 0.0 <= x;
    assert n > 0 ==> x < n as real;
    x.Floor
  }

  /** The drawn player's key; `None` (JavaScript's `undefined`) only when
      nobody is in the lobby. */
  function Pick(ps: seq<Player>, r: Fraction): (p: Option<string>)
    ensures |ps| > 0 <==> p.Some?
    ensures p.Some? ==> HasKey(ps, p.value)
  {
    var i := DrawIndex(r, |ps|);
    if 0 <= i < |ps| then Some(ps[i].name) else None
  }

  /** Every index can come out of the draw: `j / n` yields player j. */
  lemma DrawReachesEveryIndex(n: nat, j: nat)
    requires j < n
    ensures 0.0 <= j as real / n as real < 1.0
    ensures DrawIndex(j as real / n as real, n) == j
  {
    var d: real := n as real;
    var r: real := j as real / d;
    assert r * d == j as real;
    assert (1.0 - r) * d == d - j as real;
    assert (1.0 - r) * d > 0.0;
  }
}

=== FILE: handlers.dfy ===
/** The message handlers of the two servers, one function per handler. The
    variant parameter selects the server.js (`Ring`) or the
    wer-bin-ich/server.js (`Draw`) behaviour where they differ. */
module Handlers {
  import opened Maybe
  import opened Names
  import opened Roster
  import opened Assoc
  import opened RingAssignment
  import opened RandomDraw
  import opened Session

  /** `s'` differs from `s` at most in lobby `id`, which both hold. */
  predicate OnlyTouches(s: Store, s': Store, id: string) {
    && id in s && s'.Keys == s.Keys
    && forall other :: other in s && other != id ==> s'[other] == s[other]
  }

  // ---------------------------------------------------------------- createLobby

  /** The sender becomes host and sole player of a fresh lobby under the
      drawn id, and alone hears about it. */
  function HandleCreateLobby(v: Variant, s: Store, id: string, raw: string): (r: Outcome)
    ensures r.Done? && r.store.Keys == s.Keys + {id}
    ensures forall other :: other in s && other != id ==> r.store[other] == s[other]
    ensures r.store[id].players == [Entrant(v, raw)] && r.store[id].host == Normalize(raw)
    ensures r.store[id].phase == InLobby && r.store[id].currentPlayer == None
    ensures r.store[id].characters == map[] && r.store[id].imageUrls == map[]
    ensures r.store[id].revealedPlayers == [] && r.store[id].assignments == []
    ensures r.conn == Attached(id, Normalize(raw), DisplayFor(v, raw))
    ensures r.out == [ToSender(LobbyCreated(id, Normalize(raw), DisplayFor(v, raw), true, [Entrant(v, raw)]))]
    ensures LobbyValid(r.store[id])
    ensures Valid(s) ==> Valid(r.store)
  {
    var p := Entrant(v, raw);
    var l := NewLobby(p);
    NewLobbyValid(p);
    StoreValid(s, id, l);
    Done(s[id := l], Attached(id, p.name, DisplayFor(v, raw)),
         [ToSender(LobbyCreated(id, p.name, DisplayFor(v, raw), true, [p]))])
  }

  // ------------------------------------------------------------------ joinLobby

  /** A new key is appended as the last player and the whole lobby hears of
      it; a taken key or an unknown lobby changes nothing and only the sender
      hears an error. */
  function HandleJoinLobby(v: Variant, s: Store, c: Conn, id: string, raw: string): (r: Outcome)
    ensures id !in s ==> r == Done(s, c, [ToSender(Error(NotFoundMessage))])
    ensures id in s && HasKey(s[id].players, Normalize(raw)) ==>
      r == Done(s, c, [ToSender(Error(NameTakenMessage))])
    ensures id in s && !HasKey(s[id].players, Normalize(raw)) ==>
      && r.Done? && OnlyTouches(s, r.store, id)
      && r.store[id].players == s[id].players + [Entrant(v, raw)]
      && r.store[id] == s[id].(players := r.store[id].players)
      && r.conn == Attached(id, Normalize(raw), DisplayFor(v, raw))
      && r.out == [Broadcast(id, PlayerJoined(Normalize(raw), DisplayFor(v, raw), id, r.store[id].players, false))]
    ensures Valid(s) && r.Done? ==> Valid(r.store)
  {
    if id !in s then Done(s, c, [ToSender(Error(NotFoundMessage))])
    else
      var l := s[id];
      var p := Entrant(v, raw);
      if HasKey(l.players, p.name) then Done(s, c, [ToSender(Error(NameTakenMessage))])
      else
        var l' := l.(players := l.players + [p]);
        AppendFresh(l.players, p);
        StoreValid(s, id, l');
        Done(s[id := l'], Attached(id, p.name, DisplayFor(v, raw)),
             [Broadcast(id, PlayerJoined(p.name, DisplayFor(v, raw), id, l'.players, false))])
  }

  // ------------------------------------------------------- leaveLobby and close

  /** The sender's socket names a live lobby (for `close`, also a non-empty id). */
  predicate Departs(s: Store, c: Conn, closing: bool) {
    c.Attached? && c.lobbyId in s && (!closing || c.lobbyId != "")
  }

  /** Leaving (or closing the socket) filters the sender's key out of the
      player list, keeping the order of the rest; if the sender is the host
      the lobby is deleted after the filtered list is announced, otherwise
      everything but the player list is kept. The socket keeps its fields. */
  function HandleDepart(s: Store, c: Conn, closing: bool): (r: Outcome)
    ensures r.Done? && r.conn == c
    ensures !Departs(s, c, closing) ==> r == Done(s, c, [])
    ensures Departs(s, c, closing) && c.playerName == s[c.lobbyId].host ==>
      && r.store.Keys == s.Keys - {c.lobbyId}
      && (forall other :: other in r.store ==> r.store[other] == s[other])
      && |r.out| == 1 && r.out[0].Broadcast? && r.out[0].lobbyId == c.lobbyId
      && r.out[0].event.PlayerLeft? && r.out[0].event.lobbyDeleted
      && r.out[0].event.players == Without(s[c.lobbyId].players, c.playerName)
      && !HasKey(r.out[0].event.players, c.playerName)
    ensures Departs(s, c, closing) && c.playerName != s[c.lobbyId].host ==>
      && OnlyTouches(s, r.store, c.lobbyId)
      && r.store[c.lobbyId] == s[c.lobbyId].(players := r.store[c.lobbyId].players)
      && r.store[c.lobbyId].players == Without(s[c.lobbyId].players, c.playerName)
      && !HasKey(r.store[c.lobbyId].players, c.playerName)
      && (forall p: Player :: p.name != c.playerName ==>
            multiset(r.store[c.lobbyId].players)[p] == multiset(s[c.lobbyId].players)[p])
      && r.out == [Broadcast(c.lobbyId,
                     if closing then PlayerDisconnected(r.store[c.lobbyId].players)
                     else PlayerLeft(r.store[c.lobbyId].players, false))]
    ensures Valid(s) ==> Valid(r.store)
  {
    if !Departs(s, c, closing) then Done(s, c, [])
    else
      var id := c.lobbyId;
      var l := s[id];
      var rest := Without(l.players, c.playerName);
      WithoutKeys(l.players, c.playerName);
      WithoutCounts(l.players, c.playerName);
      if c.playerName == l.host then
        Done(s - {id}, c, [Broadcast(id, PlayerLeft(rest, true))])
      else
        WithoutUnique(l.players, c.playerName);
        var ev := if closing then PlayerDisconnected(rest) else PlayerLeft(rest, false);
        StoreValid(s, id, l.(players := rest));
        Done(s[id := l.(players := rest)], c, [Broadcast(id, ev)])
  }

  // ------------------------------------------------------------ startAssignment

  /** Only the host's request acts. It moves the lobby to the assignment
      phase and announces who is to be given a character: in server.js the
      whole ring is stored and the first player's assignee announced, in
      wer-bin-ich/server.js a drawn player is announced. */
  function HandleStartAssignment(v: Variant, s: Store, c: Conn, id: string, who: string, draw: Fraction): (r: Outcome)
    ensures !(id in s && who == s[id].host) ==> r == Done(s, c, [])
    ensures id in s && who == s[id].host && v.Ring? && |s[id].players| == 0 ==> r == Fault
    ensures id in s && who == s[id].host && (v.Draw? || |s[id].players| > 0) ==>
      && r.Done? && r.conn == c && OnlyTouches(s, r.store, id)
      && r.store[id] == s[id].(phase := Assignment, assignments := r.store[id].assignments)
      && (v.Ring? ==> r.store[id].assignments == RingAssignments(s[id].players))
      && (v.Draw? ==> r.store[id].assignments == s[id].assignments)
      && |r.out| == 1 && r.out[0].Broadcast? && r.out[0].lobbyId == id
      && r.out[0].event.AssignmentStarted?
      && (v.Ring? ==> r.out[0].event.assignTo == Get(r.store[id].assignments, s[id].players[0].name))
      && (v.Draw? ==> r.out[0].event.assignTo == Pick(s[id].players, draw))
      && (|s[id].players| > 0 ==> r.out[0].event.assignTo.Some? && HasKey(s[id].players, r.out[0].event.assignTo.value))
    ensures Valid(s) && r.Done? ==> Valid(r.store)
  {
    if !(id in s && who == s[id].host) then Done(s, c, [])
    else
      var l := s[id];
      var ps := l.players;
      if v.Draw? then
        var l' := l.(phase := Assignment);
        StoreValid(s, id, l');
        Done(s[id := l'], c, [Broadcast(id, AssignmentStarted(Pick(ps, draw), None))])
      else if |ps| == 0 then Fault
      else
        var a := RingAssignments(ps);
        BuildMembers(ps, |ps|);
        var assignee := Get(a, ps[0].name).value;
        var shown := Find(ps, assignee).value;
        var l' := l.(phase := Assignment, assignments := a);
        StoreValid(s, id, l');
        Done(s[id := l'], c,
             [Broadcast(id, AssignmentStarted(Some(assignee), Some(shown.displayName)))])
  }

  // ------------------------------------------------------------ assignCharacter

  /** The pending assignment of `who` in server.js; an entry naming the empty
      key counts as none, since `if (assignee)` finds "" false. */
  predicate Pending(l: Lobby, who: string) {
    Truthy(Get(l.assignments, who))
  }

  /** Every pending assignee is still a player. */
  predicate AssigneesPresent(l: Lobby) {
    forall e :: e in l.assignments ==> HasKey(l.players, e.1)
  }

  /** server.js: the character and image go to the sender's assignee and the
      sender's entry is removed. Once no entry is left the game starts with
      the first player; otherwise the next entry's assignee is announced.
      The handler throws only when an assignee it names has left. */
  function HandleAssignRing(s: Store, c: Conn, id: string, who: string, character: string, img: Option<string>): (r: Outcome)
    ensures !(id in s && Pending(s[id], who)) ==> r == Done(s, c, [])
    ensures id in s && Pending(s[id], who) && !HasKey(s[id].players, Get(s[id].assignments, who).value) ==> r == Fault
    ensures id in s && Pending(s[id], who) && AssigneesPresent(s[id]) ==> r.Done?
    ensures r.Done? && id in s && Pending(s[id], who) ==> OnlyTouches(s, r.store, id) && r.conn == c
    ensures Valid(s) && r.Done? ==> Valid(r.store)
  {
    if !(id in s && Pending(s[id], who)) then Done(s, c, [])
    else
      var l := s[id];
      var assignee := Get(l.assignments, who).value;
      var url := ImageOrDefault(img);
      var chars := l.characters[assignee := character];
      var imgs := l.imageUrls[assignee := url];
      var target := Find(l.players, assignee);
      if target.None? then Fault
      else
        var announced := Broadcast(id, CharacterAssigned(assignee, Some(target.value.displayName), character, url, l.players));
        var rest := Delete(l.assignments, who);
        StoreValid(s, id, l.(characters := chars, imageUrls := imgs, assignments := rest));
        if |rest| == 0 then
          var first := l.players[0];
          var l' := l.(characters := chars, imageUrls := imgs, assignments := rest, phase := Game, currentPlayer := Some(first.name));
          StoreValid(s, id, l');
          Done(s[id := l'], c,
               [announced, Broadcast(id, GameStarted(first.name, Lookup(chars, first.name), Some(first.displayName), l.players, imgs))])
        else
          var l' := l.(characters := chars, imageUrls := imgs, assignments := rest);
          var next := rest[0];
          if next.0 == "" then Done(s[id := l'], c, [announced])
          else
            var nextTarget := Find(l.players, next.1);
            if nextTarget.None? then Fault
            else Done(s[id := l'], c, [announced, Broadcast(id, AssignmentStarted(Some(next.1), Some(nextTarget.value.displayName)))])
  }

  /** A pending submission that does not throw records the character and
      image for the assignee, drops exactly the sender's entry, announces the
      assignment, and then either starts the game with the first player once
      the table is empty, or announces the assignee of the first remaining
      entry unless that entry's key is the empty string. */
  lemma AssignRingEffect(s: Store, c: Conn, id: string, who: string, character: string, img: Option<string>)
    requires id in s && Pending(s[id], who)
    ensures var r := HandleAssignRing(s, c, id, who, character, img);
      r.Done? ==>
      var l := s[id];
      var assignee := Get(l.assignments, who).value;
      var l' := r.store[id];
      && l'.players == l.players && l'.host == l.host && l'.revealedPlayers == l.revealedPlayers
      && l'.characters == l.characters[assignee := character]
      && l'.imageUrls == l.imageUrls[assignee := ImageOrDefault(img)]
      && Get(l'.assignments, who) == None
      && (forall k :: k != who ==> Get(l'.assignments, k) == Get(l.assignments, k))
      && (forall e :: e in l'.assignments <==> e in l.assignments && e.0 != who)
      && (l'.assignments == [] ==> l'.phase == Game && l'.currentPlayer == Some(l.players[0].name))
      && (l'.assignments != [] ==> l'.phase == l.phase && l'.currentPlayer == l.currentPlayer)
      && l'.assignments == Delete(l.assignments, who)
      && 1 <= |r.out| <= 2 && Find(l.players, assignee).Some?
      && r.out[0] == Broadcast(id, CharacterAssigned(assignee, Some(Find(l.players, assignee).value.displayName),
                                                     character, ImageOrDefault(img), l.players))
      && (l'.assignments == [] ==>
            r.out == [r.out[0], Broadcast(id, GameStarted(l.players[0].name, Lookup(l'.characters, l.players[0].name),
                                                          Some(l.players[0].displayName), l.players, l'.imageUrls))])
      && (l'.assignments != [] ==> (|r.out| == 2 <==> l'.assignments[0].0 != ""))
      && (l'.assignments != [] && |r.out| == 2 ==>
            && Find(l.players, l'.assignments[0].1).Some?
            && r.out[1] == Broadcast(id, AssignmentStarted(Some(l'.assignments[0].1),
                                                           Some(Find(l.players, l'.assignments[0].1).value.displayName))))
  {
    var r := HandleAssignRing(s, c, id, who, character, img);
    var l := s[id];
    var assignee := Get(l.assignments, who).value;
    var rest := Delete(l.assignments, who);
    var target := Find(l.players, assignee);
    if target.Some? {
      var chars := l.characters[assignee := character];
      var imgs := l.imageUrls[assignee := ImageOrDefault(img)];
      var base := l.(characters := chars, imageUrls := imgs, assignments := rest);
      if |rest| == 0 {
        assert r.store[id] == base.(phase := Game, currentPlayer := Some(l.players[0].name));
        assert |r.out| == 2;
      } else if r.Done? {
        assert r.store[id] == base;
      }
    }
  }

  /** wer-bin-ich/server.js: the character and image are stored under the
      sender's own name. The game starts, with the first player, exactly
      when there are as many character entries as players; otherwise the
      phase stays and a newly drawn player is announced. */
  function HandleAssignDraw(s: Store, c: Conn, id: string, who: string, character: string, img: Option<string>, draw: Fraction): (r: Outcome)
    ensures r.Done? && r.conn == c
    ensures id !in s ==> r == Done(s, c, [])
    ensures id in s ==> OnlyTouches(s, r.store, id)
    ensures id in s ==>
      var l := s[id];
      var l' := r.store[id];
      && l'.players == l.players && l'.host == l.host && l'.revealedPlayers == l.revealedPlayers
      && l'.assignments == l.assignments
      && l'.characters == l.characters[who := character]
      && l'.imageUrls == l.imageUrls[who := ImageOrDefault(img)]
      && (|l'.characters| == |l.players| ==> |l.players| > 0 && l'.phase == Game && l'.currentPlayer == Some(l.players[0].name))
      && (|l'.characters| != |l.players| ==> l'.phase == l.phase && l'.currentPlayer == l.currentPlayer)
      && |r.out| == 2
      && r.out[0] == Broadcast(id, CharacterAssigned(who, None, character, ImageOrDefault(img), l.players))
      && (r.out[1].event.GameStarted? <==> |l'.characters| == |l.players|)
      && (|l'.characters| == |l.players| ==>
            && |l.players| > 0
            && r.out[1] == Broadcast(id, GameStarted(l.players[0].name, Lookup(l'.characters, l.players[0].name),
                                                     None, l.players, l'.imageUrls)))
      && (|l'.characters| != |l.players| ==> r.out[1] == Broadcast(id, AssignmentStarted(Pick(l.players, draw), None)))
    ensures Valid(s) ==> Valid(r.store)
  {
    if id !in s then Done(s, c, [])
    else
      var l := s[id];
      var url := ImageOrDefault(img);
      var chars := l.characters[who := character];
      var imgs := l.imageUrls[who := url];
      var announced := Broadcast(id, CharacterAssigned(who, None, character, url, l.players));
      if |chars| == |l.players| then
        assert who in chars.Keys;
        var first := l.players[0].name;
        var l' := l.(characters := chars, imageUrls := imgs, phase := Game, currentPlayer := Some(first));
        StoreValid(s, id, l');
        Done(s[id := l'], c, [announced, Broadcast(id, GameStarted(first, Lookup(chars, first), None, l.players, imgs))])
      else
        var l' := l.(characters := chars, imageUrls := imgs);
        StoreValid(s, id, l');
        Done(s[id := l'], c, [announced, Broadcast(id, AssignmentStarted(Pick(l.players, draw), None))])
  }

  // ----------------------------------------------------------------- nextPlayer

  /** The index `(i + 1) % n` the turn moves to from index `i`, where a
      missing current player counts as index -1. */
  function TurnAfter(i: int, n: nat): (j: nat)
    requires n > 0 && -1 <= i < n
    ensures j < n
    ensures i == -1 ==> j == 0
    ensures i >= 0 ==> j == Successor(i, n)
  {
    if i >= 0 then
      SuccessorIsMod(i, n);
      (i + 1) % n
    else
      (i + 1) % n
  }

  /** The player who moves after `cur`: the next one in join order,
      wrapping after the last, or the first player when `cur` is not a
      player. */
  function NextInTurn(ps: seq<Player>, cur: Option<string>): (p: Player)
    requires |ps| > 0
    ensures p in ps
    ensures cur.None? || !HasKey(ps, cur.value) ==> p == ps[0]
    ensures 0 <= IndexOfCurrent(ps, cur) ==> p == ps[Successor(IndexOfCurrent(ps, cur), |ps|)]
  {
    ps[TurnAfter(IndexOfCurrent(ps, cur), |ps|)]
  }

  /** The turn passes to the player after the current one in join order,
      wrapping after the last; with no current player (or one who has left)
      it goes to the first player. Nothing else changes. */
  function HandleNextPlayer(v: Variant, s: Store, c: Conn, id: string): (r: Outcome)
    ensures id !in s ==> r == Done(s, c, [])
    ensures r.Fault? <==> v.Ring? && id in s && |s[id].players| == 0
    ensures Valid(s) && r.Done? ==> Valid(r.store)
  {
    if id !in s then Done(s, c, [])
    else
      var l := s[id];
      var n := |l.players|;
      if n == 0 then
        if v.Ring? then Fault
        else
          // `players[NaN]` is `undefined`, and `characters[undefined]` reads the key "undefined"
          StoreValid(s, id, l.(currentPlayer := None));
          Done(s[id := l.(currentPlayer := None)], c,
               [Broadcast(id, NextTurn(None, Lookup(l.characters, "undefined"), None, l.players, l.revealedPlayers, l.imageUrls))])
      else
        var p := NextInTurn(l.players, l.currentPlayer);
        var shown := if v.Ring? then Some(Find(l.players, p.name).value.displayName) else None;
        StoreValid(s, id, l.(currentPlayer := Some(p.name)));
        Done(s[id := l.(currentPlayer := Some(p.name))], c,
             [Broadcast(id, NextTurn(Some(p.name), Lookup(l.characters, p.name), shown, l.players, l.revealedPlayers, l.imageUrls))])
  }

  /** In a lobby with players, `nextPlayer` moves the turn to the next player
      in turn order, changes nothing else, and announces that player with
      their character and the reveals so far. */
  lemma NextPlayerEffect(v: Variant, s: Store, c: Conn, id: string)
    requires id in s && |s[id].players| > 0
    ensures var r := HandleNextPlayer(v, s, c, id);
      var ps := s[id].players;
      var next := Some(NextInTurn(ps, s[id].currentPlayer).name);
      && r.Done? && r.conn == c && OnlyTouches(s, r.store, id)
      && r.store[id] == s[id].(currentPlayer := next)
      && |r.out| == 1 && r.out[0] == Broadcast(id, r.out[0].event)
      && r.out[0].event.NextTurn? && r.out[0].event.currentPlayer == next
      && r.out[0].event.currentCharacter == Lookup(s[id].characters, next.value)
      && r.out[0].event.revealedPlayers == s[id].revealedPlayers
  {
  }

  // ------------------------------------------------------------ revealCharacter

  /** The current player is set and still a player (server.js looks up their
      display name and throws otherwise). */
  predicate CurrentPresent(l: Lobby) {
    l.currentPlayer.Some? && HasKey(l.players, l.currentPlayer.value)
  }

  /** The normalised name is appended to the reveals, duplicates included,
      and the game-end event follows exactly when the reveals then number as
      many as the players. */
  function HandleReveal(v: Variant, s: Store, c: Conn, id: string, raw: string): (r: Outcome)
    ensures id !in s ==> r == Done(s, c, [])
    ensures id in s && v.Ring? && !CurrentPresent(s[id]) ==> r == Fault
    ensures id in s && (v.Draw? || CurrentPresent(s[id])) ==> r.Done? && r.conn == c && OnlyTouches(s, r.store, id)
    ensures id in s && (v.Draw? || CurrentPresent(s[id])) ==>
      var l := s[id];
      var l' := r.store[id];
      && l' == l.(revealedPlayers := l.revealedPlayers + [Normalize(raw)])
      && 1 <= |r.out| <= 2
      && r.out[0] == Broadcast(id, r.out[0].event) && r.out[0].event.CharacterRevealed?
      && r.out[0].event.revealedPlayers == l'.revealedPlayers
      && (|r.out| == 2 <==> |l'.revealedPlayers| == |l.players|)
      && (|r.out| == 2 ==> r.out[1] == Broadcast(id, GameEnded(l.characters, l.imageUrls, l.players, l'.revealedPlayers)))
    ensures Valid(s) && r.Done? ==> Valid(r.store)
  {
    if id !in s then Done(s, c, [])
    else
      var l := s[id];
      var l' := l.(revealedPlayers := l.revealedPlayers + [Normalize(raw)]);
      if v.Ring? && !CurrentPresent(l) then Fault
      else
        var shown := if v.Ring? then Some(Find(l.players, l.currentPlayer.value).value.displayName) else None;
        var revealed := Broadcast(id, CharacterRevealed(l.currentPlayer, shown, Lookup(l.characters, raw), l'.revealedPlayers, l.imageUrls));
        var ended := if |l'.revealedPlayers| == |l.players|
          then [Broadcast(id, GameEnded(l.characters, l.imageUrls, l.players, l'.revealedPlayers))]
          else [];
        StoreValid(s, id, l');
        Done(s[id := l'], c, [revealed] + ended)
  }

  // ---------------------------------------------------------------- restartGame

  /** Only the host's request acts. It returns the lobby to the lobby phase
      and clears characters, images, reveals and the current player (and, in
      server.js, the assignment table), keeping the players and the host. */
  function HandleRestart(v: Variant, s: Store, c: Conn, id: string, who: string): (r: Outcome)
    ensures r.Done? && r.conn == c
    ensures !(id in s && who == s[id].host) ==> r == Done(s, c, [])
    ensures id in s && who == s[id].host ==> OnlyTouches(s, r.store, id)
    ensures id in s && who == s[id].host ==>
      var l := s[id];
      var l' := r.store[id];
      && l'.players == l.players && l'.host == l.host && l'.phase == InLobby
      && l'.characters == map[] && l'.imageUrls == map[] && l'.revealedPlayers == []
      && l'.currentPlayer == None
      && (v.Ring? ==> l'.assignments == []) && (v.Draw? ==> l'.assignments == l.assignments)
      && r.out == [Broadcast(id, LobbyCreated(id, who, if v.Ring? then ConnDisplay(c) else None, true, l.players))]
    ensures Valid(s) ==> Valid(r.store)
  {
    if !(id in s && who == s[id].host) then Done(s, c, [])
    else
      var l := s[id];
      var cleared := l.(phase := InLobby, characters := map[], imageUrls := map[], revealedPlayers := [], currentPlayer := None);
      var l' := if v.Ring? then cleared.(assignments := []) else cleared;
      StoreValid(s, id, l');
      Done(s[id := l'], c, [Broadcast(id, LobbyCreated(id, who, if v.Ring? then ConnDisplay(c) else None, true, l.players))])
  }

  // --------------------------------------------------------------- restoreState

  /** The player list after a reconnect: unchanged when the key is listed,
      otherwise the player is appended. */
  function Rejoin(ps: seq<Player>, p: Player): (r: seq<Player>)
    ensures HasKey(ps, p.name) ==> r == ps
    ensures !HasKey(ps, p.name) ==> r == ps + [p]
    ensures Unique(ps) ==> Unique(r)
    ensures forall k :: HasKey(r, k) <==> HasKey(ps, k) || k == p.name
  {
    if HasKey(ps, p.name) then ps else AppendFresh(ps, p); ps + [p]
  }

  /** A reconnecting player is appended only if their key is new; the socket
      is attached, the sender gets a full snapshot, and the lobby is told
      the player joined. In server.js the handler throws when a current
      player is set but no longer among the players. */
  function HandleRestore(v: Variant, s: Store, c: Conn, id: string, raw: string): (r: Outcome)
    ensures id !in s ==> r == Done(s, c, [ToSender(Error(NotFoundMessage))])
    ensures id in s ==>
      (r.Fault? <==> v.Ring? && Truthy(s[id].currentPlayer)
                     && !HasKey(s[id].players, s[id].currentPlayer.value)
                     && s[id].currentPlayer.value != Normalize(raw))
    ensures id in s && r.Done? ==> OnlyTouches(s, r.store, id)
    ensures id in s && r.Done? ==> r.store[id] == s[id].(players := Rejoin(s[id].players, Entrant(v, raw)))
    ensures id in s && r.Done? ==>
      r.conn == Attached(id, Normalize(raw), if v.Ring? then Some(Trim(raw)) else ConnDisplay(c))
    ensures id in s && r.Done? ==>
      && |r.out| == 2 && r.out[0].ToSender? && r.out[0].event.Snapshot?
      && r.out[0].event.players == r.store[id].players && r.out[0].event.phase == s[id].phase
      && r.out[0].event.isHost == (Normalize(raw) == s[id].host)
    ensures id in s && r.Done? ==>
      r.out[1] == Broadcast(id, PlayerJoined(Normalize(raw), DisplayFor(v, raw), id, r.store[id].players, Normalize(raw) == s[id].host))
    ensures Valid(s) && r.Done? ==> Valid(r.store)
  {
    if id !in s then Done(s, c, [ToSender(Error(NotFoundMessage))])
    else
      var l := s[id];
      var p := Entrant(v, raw);
      var key := p.name;
      var ps := Rejoin(l.players, p);
      var isHost := key == l.host;
      var cur := l.currentPlayer;
      if v.Ring? && Truthy(cur) && !HasKey(ps, cur.value) then Fault
      else
        var curChar := if Truthy(cur) then Lookup(l.characters, cur.value) else None;
        var curShown := if v.Ring? && Truthy(cur) then Some(Find(ps, cur.value).value.displayName) else None;
        var display := if v.Ring? then Some(Trim(raw)) else ConnDisplay(c);
        StoreValid(s, id, l.(players := ps));
        Done(s[id := l.(players := ps)], Attached(id, key, display),
             [ToSender(Snapshot(id, key, DisplayFor(v, raw), isHost, ps, l.phase, l.characters, l.imageUrls,
                                l.revealedPlayers, cur, curChar, curShown)),
              Broadcast(id, PlayerJoined(key, DisplayFor(v, raw), id, ps, isHost))])
  }
}

=== FILE: maybe.dfy ===
/** Optional values, standing for JavaScript's `null` and `undefined` where the
    servers use them to mean "absent". */
module Maybe {

  datatype Option<+T> = None | Some(value: T)
}

=== FILE: names.dfy ===
/** Player-name normalisation: `name.trim().toLowerCase()`, restricted to ASCII.
    The normalised name is a player's identity key in both servers. */
module Names {

  /** The ASCII characters that `String.prototype.trim` removes. */
  predicate IsSpace(ch: char) {
    ch == ' ' || ch == '\t' || ch == '\n' || ch == '\r' || ch == '\U{000B}' || ch == '\U{000C}'
  }

  /** No whitespace at either end. */
  predicate Trimmed(s: string) {
    s == [] || (!IsSpace(s[0]) && !IsSpace(s[|s| - 1]))
  }

  /** No ASCII upper-case letter anywhere. */
  predicate Lowered(s: string) {
    forall i :: 0 <= i < |s| ==> !('A' <= s[i] <= 'Z')
  }

  /** Drops leading whitespace: the result is the suffix that starts at the
      first non-space character. */
  function TrimStart(s: string): (r: string)
    ensures |r| <= |s| && r == s[|s| - |r|..]
    ensures r == [] || !IsSpace(r[0])
    ensures forall i :: 0 <= i < |s| - |r| ==> IsSpace(s[i])
  {
    if |s| > 0 && IsSpace(s[0]) then TrimStart(s[1..]) else s
  }

  /** Drops trailing whitespace: the result is the prefix that ends at the
      last non-space character. */
  function TrimEnd(s: string): (r: string)
    ensures |r| <= |s| && r == s[..|r|]
    ensures r == [] || !IsSpace(r[|r| - 1])
    ensures forall i :: |r| <= i < |s| ==> IsSpace(s[i])
  {
    if |s| > 0 && IsSpace(s[|s| - 1]) then TrimEnd(s[..|s| - 1]) else s
  }

  /** The number of whitespace characters `s` starts with. */
  function Leading(s: string): (n: nat)
    ensures n <= |s|
    ensures forall i :: 0 <= i < n ==> IsSpace(s[i])
    ensures n < |s| ==> !IsSpace(s[n])
  {
    var u := TrimStart(s);
    assert u == s[|s| - |u|..];
    |s| - |u|
  }

  /** `s[a..b]` is what trimming leaves of `s`: everything before `a` and
      from `b` on is whitespace, and the slice itself is trimmed. */
  predicate TrimBounds(s: string, a: int, b: int) {
    && 0 <= a <= b <= |s|
    && (forall i :: 0 <= i < a ==> IsSpace(s[i]))
    && (forall i :: b <= i < |s| ==> IsSpace(s[i]))
    && Trimmed(s[a..b])
  }

  /** `String.prototype.trim` over ASCII whitespace. What it leaves is
      trimmed, and a trimmed string is left alone; `TrimSpec` locates the
      result inside `s`. */
  function Trim(s: string): (r: string)
    ensures Trimmed(r)
    ensures Trimmed(s) ==> r == s
  {
    TrimEnd(TrimStart(s))
  }

  /** Trimming keeps the slice of `s` that starts after its leading
      whitespace, and leaves only whitespace behind it. */
  lemma TrimSlice(s: string)
    ensures Leading(s) + |Trim(s)| <= |s|
    ensures Trim(s) == s[Leading(s)..Leading(s) + |Trim(s)|]
    ensures forall i :: Leading(s) + |Trim(s)| <= i < |s| ==> IsSpace(s[i])
  {
    var u := TrimStart(s);
    var a := |s| - |u|;
    var r := TrimEnd(u);
    assert Leading(s) == a && Trim(s) == r;
    assert r == s[a..a + |r|];
    forall i | a + |r| <= i < |s| ensures IsSpace(s[i]) {
      assert s[i] == u[i - a];
    }
  }

  /** The trim is the slice of `s` that starts after its leading whitespace
      and leaves only whitespace behind it. */
  lemma TrimSpec(s: string)
    ensures TrimBounds(s, Leading(s), Leading(s) + |Trim(s)|)
    ensures Trim(s) == s[Leading(s)..Leading(s) + |Trim(s)|]
  {
    TrimSlice(s);
  }

  /** Trimming is determined by its bounds: any slice that has only
      whitespace outside it and none at its own ends is the trim. */
  lemma TrimUnique(s: string, a: int, b: int)
    requires TrimBounds(s, a, b)
    ensures s[a..b] == Trim(s)
  {
    TrimSpec(s);
    var a', b' := Leading(s), Leading(s) + |Trim(s)|;
    if a < b && a' < b' {
      assert !IsSpace(s[a]) && !IsSpace(s[b - 1]);
      assert !IsSpace(s[a']) && !IsSpace(s[b' - 1]);
      assert a == a' && b == b';
    }
  }

  /** The case mapping of one character: an upper-case ASCII letter becomes
      its lower-case letter, anything else stays. */
  predicate LowersTo(ch: char, d: char) {
    if 'A' <= ch <= 'Z' then d as int == ch as int + 32 else d == ch
  }

  function LowerChar(ch: char): (d: char)
    ensures LowersTo(ch, d)
  {
    if 'A' <= ch <= 'Z' then (ch as int + 32) as char else ch
  }

  /** `String.prototype.toLowerCase` over ASCII letters; every other
      character is kept. */
  function Lower(s: string): (r: string)
    ensures |r| == |s| && forall i :: 0 <= i < |s| ==> LowersTo(s[i], r[i])
    ensures Lowered(r)
    ensures forall i :: 0 <= i < |s| ==> (IsSpace(r[i]) <==> IsSpace(s[i]))
    ensures Lowered(s) ==> r == s
  {
    seq(|s|, i requires 0 <= i < |s| => LowerChar(s[i]))
  }

  /** The identity key of a typed-in name (server.js:27-28,
      wer-bin-ich/server.js:27): the trimmed name with every upper-case
      letter lowered. */
  function Normalize(s: string): (r: string)
    ensures |r| == |Trim(s)|
    ensures Trimmed(r) && Lowered(r)
  {
    Lower(Trim(s))
  }

  /** Character `i` of the key is character `i` of the trimmed name lowered,
      which is the character of `s` just after its leading whitespace and
      `i` further on. */
  lemma NormalizeSpec(s: string)
    ensures Leading(s) + |Normalize(s)| <= |s|
    ensures forall i :: 0 <= i < |Normalize(s)| ==> LowersTo(s[Leading(s) + i], Normalize(s)[i])
  {
    TrimSlice(s);
  }

  /** Normalising a key again gives the same key, so a name that is already a
      key denotes that key. */
  lemma NormalizeIdempotent(s: string)
    ensures Normalize(Normalize(s)) == Normalize(s)
  {
    var k := Normalize(s);
    assert Trim(k) == k;
    assert Lower(k) == k;
  }
}

=== FILE: ring.dfy ===
/** The ring assignment of server.js:91-97: with players p0 .. p(n-1) in join
    order, player i chooses the character of player (i + 1) mod n. */
module RingAssignment {
  import opened Maybe
  import opened Roster
  import opened Assoc

  /** The index of the player after player i, wrapping to 0 after the last. */
  function Successor(i: nat, n: nat): nat
    requires i < n
  {
    if i + 1 == n then 0 else i + 1
  }

  /** `Successor` is the loop's `(i + 1) % players.length`. */
  lemma SuccessorIsMod(i: nat, n: nat)
    requires i < n
    ensures Successor(i, n) == (i + 1) % n
  {
  }

  /** The `assignments` object after the first `k` rounds of the loop. */
  function Build(ps: seq<Player>, k: nat): (t: Table)
    requires k <= |ps|
    ensures WellFormed(t)
    ensures forall i :: 0 <= i < k ==> Defines(t, ps[i].name)
  {
    if k == 0 then []
    else
      var t0 := Build(ps, k - 1);
      var assignee := ps[Successor(k - 1, |ps|)].name;
      PutGet(t0, ps[k - 1].name, assignee);
      var t := Put(t0, ps[k - 1].name, assignee);
      assert forall i :: 0 <= i < k - 1 ==> Defines(t, ps[i].name) by {
        forall i | 0 <= i < k - 1 ensures Defines(t, ps[i].name) {
          var j :| 0 <= j < |t0| && t0[j].0 == ps[i].name;
          assert t[j].0 == ps[i].name;
        }
      }
      t
  }

  /** The whole table built by the loop. */
  function RingAssignments(ps: seq<Player>): (t: Table)
    ensures WellFormed(t)
    ensures forall i :: 0 <= i < |ps| ==> Defines(t, ps[i].name)
  {
    Build(ps, |ps|)
  }

  /** Every entry of the loop's table pairs two players of the lobby. */
  lemma {:induction false} BuildMembers(ps: seq<Player>, k: nat)
    requires k <= |ps|
    ensures forall e :: e in Build(ps, k) ==> HasKey(ps, e.0) && HasKey(ps, e.1)
  {
    if k > 0 {
      BuildMembers(ps, k - 1);
      var j := Successor(k - 1, |ps|);
      assert HasKey(ps, ps[k - 1].name) && HasKey(ps, ps[j].name);
    }
  }

  /** The intended ring, independently of the loop: entry i pairs player i
      with player (i + 1) mod n. */
  function RingSpec(ps: seq<Player>): Table {
    seq(|ps|, i requires 0 <= i < |ps| => (ps[i].name, ps[Successor(i, |ps|)].name))
  }

  /** With unique keys the loop builds exactly the ring, entries in join order. */
  lemma {:induction false} BuildIsRingPrefix(ps: seq<Player>, k: nat)
    requires Unique(ps) && k <= |ps|
    ensures Build(ps, k) == RingSpec(ps)[..k]
  {
    if k > 0 {
      BuildIsRingPrefix(ps, k - 1);
      BuildStep(ps, k);
    }
  }

  /** One round of the loop appends the next ring entry: a ring prefix of
      length k - 1 grows to the ring prefix of length k. */
  lemma BuildStep(ps: seq<Player>, k: nat)
    requires Unique(ps) && 0 < k <= |ps|
    ensures Build(ps, k - 1) == RingSpec(ps)[..k - 1] ==> Build(ps, k) == RingSpec(ps)[..k]
  {
    var spec := RingSpec(ps);
    var t0 := Build(ps, k - 1);
    if t0 == spec[..k - 1] {
      RingPrefixFresh(ps, k);
      var e := (ps[k - 1].name, ps[Successor(k - 1, |ps|)].name);
      assert Build(ps, k) == t0 + [e] by {
        assert Build(ps, k) == Put(t0, e.0, e.1);
      }
      SliceSnoc(spec, k);
    }
  }

  /** The ring prefix before player k - 1 has no entry for that player. */
  lemma RingPrefixFresh(ps: seq<Player>, k: nat)
    requires Unique(ps) && 0 < k <= |ps|
    ensures !Defines(RingSpec(ps)[..k - 1], ps[k - 1].name)
  {
    var p := RingSpec(ps)[..k - 1];
    forall j | 0 <= j < |p| ensures p[j].0 != ps[k - 1].name {
      UniqueAt(ps, j, k - 1);
    }
  }

  /** A prefix is the shorter prefix plus its last element. */
  lemma SliceSnoc<T>(s: seq<T>, k: nat)
    requires 0 < k <= |s|
    ensures s[..k] == s[..k - 1] + [s[k - 1]]
  {
  }

  lemma RingIsSpec(ps: seq<Player>)
    requires Unique(ps)
    ensures RingAssignments(ps) == RingSpec(ps)
  {
    BuildIsRingPrefix(ps, |ps|);
  }

  /** Player i is assigned player (i + 1) mod n. */
  lemma RingSuccessor(ps: seq<Player>)
    requires Unique(ps)
    ensures forall i :: 0 <= i < |ps| ==> Get(RingAssignments(ps), ps[i].name) == Some(ps[(i + 1) % |ps|].name)
  {
    RingIsSpec(ps);
    var t := RingAssignments(ps);
    forall i | 0 <= i < |ps| ensures Get(t, ps[i].name) == Some(ps[(i + 1) % |ps|].name) {
      SuccessorIsMod(i, |ps|);
      assert t[i] == (ps[i].name, ps[Successor(i, |ps|)].name);
    }
  }

  lemma RingStep(ps: seq<Player>, m: nat)
    requires Unique(ps) && m < |ps|
    ensures Get(RingAssignments(ps), ps[m].name) == Some(ps[Successor(m, |ps|)].name)
  {
    RingIsSpec(ps);
    assert RingAssignments(ps)[m] == (ps[m].name, ps[Successor(m, |ps|)].name);
  }

  /** A lone player is assigned to themself. */
  lemma RingSingleton(ps: seq<Player>)
    requires |ps| == 1
    ensures RingAssignments(ps) == [(ps[0].name, ps[0].name)]
  {
    RingIsSpec(ps);
  }

  /** With two or more players nobody is assigned to themself. */
  lemma RingNoSelfAssignment(ps: seq<Player>)
    requires Unique(ps) && |ps| >= 2
    ensures forall e :: e in RingAssignments(ps) ==> e.0 != e.1
  {
    RingIsSpec(ps);
    var t := RingAssignments(ps);
    forall e | e in t ensures e.0 != e.1 {
      var i :| 0 <= i < |t| && t[i] == e;
      assert e == (ps[i].name, ps[Successor(i, |ps|)].name);
      UniqueAt(ps, i, Successor(i, |ps|));
    }
  }

  /** Every player is the assignee of exactly one assigner: distinct entries
      name distinct assignees, and every player is named by some entry. */
  lemma RingIsBijection(ps: seq<Player>)
    requires Unique(ps)
    ensures forall i, j :: 0 <= i < j < |RingAssignments(ps)| ==> RingAssignments(ps)[i].1 != RingAssignments(ps)[j].1
    ensures forall j :: 0 <= j < |ps| ==>
      exists i :: 0 <= i < |RingAssignments(ps)| && RingAssignments(ps)[i].1 == ps[j].name
  {
    RingIsSpec(ps);
    SpecAssigneesDistinct(ps);
    forall j | 0 <= j < |ps|
      ensures exists i :: 0 <= i < |RingAssignments(ps)| && RingAssignments(ps)[i].1 == ps[j].name
    {
      SpecCovers(ps, j);
    }
  }

  lemma SpecAssigneesDistinct(ps: seq<Player>)
    requires Unique(ps)
    ensures forall i, j :: 0 <= i < j < |RingSpec(ps)| ==> RingSpec(ps)[i].1 != RingSpec(ps)[j].1
  {
    var t := RingSpec(ps);
    var n := |ps|;
    forall i, j | 0 <= i < j < n ensures t[i].1 != t[j].1 {
      var a, b := Successor(i, n), Successor(j, n);
      assert a != b;
      UniqueAt(ps, a, b);
      assert t[i].1 == ps[a].name && t[j].1 == ps[b].name;
    }
  }

  /** Player j is the assignee of the player before it. */
  lemma SpecCovers(ps: seq<Player>, j: nat)
    requires j < |ps|
    ensures exists i :: 0 <= i < |RingSpec(ps)| && RingSpec(ps)[i].1 == ps[j].name
  {
    var n := |ps|;
    var i := if j == 0 then n - 1 else j - 1;
    assert Successor(i, n) == j;
    assert RingSpec(ps)[i].1 == ps[j].name;
  }

  /** Following assignments `k` times from `x`; a key with no entry stays put. */
  function Follow(t: Table, x: string, k: nat): string {
    if k == 0 then x
    else
      var y := Follow(t, x, k - 1);
      match Get(t, y)
      case Some(z) => z
      case None => y
  }

  /** One more step from where `k - 1` steps lead. */
  lemma FollowOnce(t: Table, x: string, k: nat, z: string)
    requires k > 0 && Get(t, Follow(t, x, k - 1)) == Some(z)
    ensures Follow(t, x, k) == z
  {
  }

  /** Every player's entry names the next player. */
  ghost predicate IsRing(t: Table, ps: seq<Player>) {
    forall m {:trigger Get(t, ps[m].name)} :: 0 <= m < |ps| ==> Get(t, ps[m].name) == Some(ps[Successor(m, |ps|)].name)
  }

  /** From player m, one step along a ring table reaches the next player. */
  lemma FollowStep(t: Table, ps: seq<Player>, x: string, k: nat, m: nat)
    requires IsRing(t, ps) && m < |ps| && k > 0 && Follow(t, x, k - 1) == ps[m].name
    ensures Follow(t, x, k) == ps[Successor(m, |ps|)].name
  {
    FollowOnce(t, x, k, ps[Successor(m, |ps|)].name);
  }

  /** Index i + k folded back into range once: the position k steps after
      player i, for k up to n. */
  function Wrap(x: nat, n: nat): nat {
    if x < n then x else x - n
  }

  lemma WrapStep(i: nat, k: nat, n: nat)
    requires i < n && 0 < k <= n
    ensures Successor(Wrap(i + k - 1, n), n) == Wrap(i + k, n)
  {
  }

  /** Following a ring table k <= n times from player i reaches player
      (i + k) mod n. */
  lemma {:induction false} FollowRing(t: Table, ps: seq<Player>, i: nat, k: nat)
    requires IsRing(t, ps) && i < |ps| && k <= |ps|
    ensures Wrap(i + k, |ps|) < |ps|
    ensures Follow(t, ps[i].name, k) == ps[Wrap(i + k, |ps|)].name
  {
    if k > 0 {
      FollowRing(t, ps, i, k - 1);
      FollowStep(t, ps, ps[i].name, k, Wrap(i + k - 1, |ps|));
      WrapStep(i, k, |ps|);
    }
  }

  /** The loop's table is a ring table. */
  lemma RingIsRing(ps: seq<Player>)
    requires Unique(ps)
    ensures IsRing(RingAssignments(ps), ps)
  {
    forall m | 0 <= m < |ps| ensures Get(RingAssignments(ps), ps[m].name) == Some(ps[Successor(m, |ps|)].name) {
      RingStep(ps, m);
    }
  }

  /** `y` is reached from `x` in fewer than `n` steps. */
  ghost predicate ReachesWithin(t: Table, x: string, y: string, n: nat) {
    exists k: nat :: k < n && Follow(t, x, k) == y
  }

  /** From every player, every player is reached in fewer than n steps. */
  lemma CycleReachesAll(t: Table, ps: seq<Player>)
    requires IsRing(t, ps)
    ensures forall i, j :: 0 <= i < |ps| && 0 <= j < |ps| ==> ReachesWithin(t, ps[i].name, ps[j].name, |ps|)
  {
    forall i, j | 0 <= i < |ps| && 0 <= j < |ps|
      ensures ReachesWithin(t, ps[i].name, ps[j].name, |ps|)
    {
      var k: nat := if i <= j then j - i else j + |ps| - i;
      FollowRing(t, ps, i, k);
      assert Follow(t, ps[i].name, k) == ps[j].name;
    }
  }

  /** With unique keys, nobody comes back to themself in fewer than n steps,
      and everybody is back after exactly n. */
  lemma CycleLength(t: Table, ps: seq<Player>)
    requires IsRing(t, ps) && Unique(ps)
    ensures forall i, k :: 0 <= i < |ps| && 0 < k < |ps| ==> Follow(t, ps[i].name, k) != ps[i].name
    ensures forall i :: 0 <= i < |ps| ==> Follow(t, ps[i].name, |ps|) == ps[i].name
  {
    var n := |ps|;
    forall i, k | 0 <= i < n && 0 < k < n
      ensures Follow(t, ps[i].name, k) != ps[i].name
    {
      FollowRing(t, ps, i, k);
      UniqueAt(ps, i, Wrap(i + k, n));
    }
    forall i | 0 <= i < n ensures Follow(t, ps[i].name, n) == ps[i].name {
      FollowRing(t, ps, i, n);
    }
  }

  /** `t` is one cycle through all players: from every player every player
      is reached in fewer than n steps, no player comes back to itself in
      fewer than n steps, and every player is back after exactly n. */
  ghost predicate SingleCycle(t: Table, ps: seq<Player>) {
    && (forall i, j :: 0 <= i < |ps| && 0 <= j < |ps| ==> ReachesWithin(t, ps[i].name, ps[j].name, |ps|))
    && (forall i, k :: 0 <= i < |ps| && 0 < k < |ps| ==> Follow(t, ps[i].name, k) != ps[i].name)
    && (forall i :: 0 <= i < |ps| ==> Follow(t, ps[i].name, |ps|) == ps[i].name)
  }

  /** The ring assignment is a single cycle through all players. */
  lemma RingSingleCycle(ps: seq<Player>)
    requires Unique(ps)
    ensures SingleCycle(RingAssignments(ps), ps)
  {
    var t := RingAssignments(ps);
    RingIsRing(ps);
    CycleReachesAll(t, ps);
    CycleLength(t, ps);
  }
}

=== FILE: roster.dfy ===
/** The ordered player list of a lobby. Join order is turn order and ring
    order. In server.js a player is `{name, displayName}`; in
    wer-bin-ich/server.js a player is just the key, represented here as a
    `Player` whose display name is the key itself. */
module Roster {
  import opened Maybe

  datatype Player = Player(name: string, displayName: string)

  /** `players.some(p => p.name === k)` / `players.includes(k)`. */
  predicate HasKey(ps: seq<Player>, k: string) {
    exists i :: 0 <= i < |ps| && ps[i].name == k
  }

  /** The identity key at position i. */
  function KeyAt(ps: seq<Player>, i: int): string
    requires 0 <= i < |ps|
  {
    ps[i].name
  }

  /** No identity key occurs twice. The quantifier fires only on `KeyAt`
      terms; `UniqueAt` states it for two given positions. */
  predicate Unique(ps: seq<Player>) {
    forall i, j {:trigger KeyAt(ps, i), KeyAt(ps, j)} :: 0 <= i < j < |ps| ==> KeyAt(ps, i) != KeyAt(ps, j)
  }

  /** Two distinct positions of a list with unique keys hold distinct keys. */
  lemma UniqueAt(ps: seq<Player>, i: int, j: int)
    requires Unique(ps) && 0 <= i < |ps| && 0 <= j < |ps| && i != j
    ensures ps[i].name != ps[j].name
  {
    if i < j {
      assert KeyAt(ps, i) != KeyAt(ps, j);
    } else {
      assert KeyAt(ps, j) != KeyAt(ps, i);
    }
  }

  /** Unique keys, stated for every pair of positions at once. */
  lemma UniqueKeys(ps: seq<Player>)
    ensures Unique(ps) ==> forall i, j :: 0 <= i < |ps| && 0 <= j < |ps| && ps[i].name == ps[j].name ==> i == j
  {
    if Unique(ps) {
      forall i, j | 0 <= i < |ps| && 0 <= j < |ps| && ps[i].name == ps[j].name ensures i == j {
        if i != j {
          UniqueAt(ps, i, j);
        }
      }
    }
  }

  /** Number of entries carrying key `k`. */
  function Occurrences(ps: seq<Player>, k: string): nat {
    if |ps| == 0 then 0
    else (if ps[0].name == k then 1 else 0) + Occurrences(ps[1..], k)
  }

  /** `players.findIndex(p => p.name === k)` / `players.indexOf(k)`: the
      first position holding `k`, or -1. */
  function IndexOf(ps: seq<Player>, k: string): (r: int)
    ensures -1 <= r < |ps|
    ensures r == -1 <==> !HasKey(ps, k)
    ensures 0 <= r ==> ps[r].name == k && forall j :: 0 <= j < r ==> ps[j].name != k
  {
    if |ps| == 0 then -1
    else if ps[0].name == k then 0
    else
      var r := IndexOf(ps[1..], k);
      assert forall j :: 1 <= j < |ps| ==> ps[j] == ps[1..][j - 1];
      if r == -1 then -1 else r + 1
  }

  /** The index lookup on `currentPlayer`, which may be `null`: no player
      name equals `null`, so the answer is then -1. */
  function IndexOfCurrent(ps: seq<Player>, cur: Option<string>): (r: int)
    ensures -1 <= r < |ps|
    ensures r == -1 <==> cur.None? || !HasKey(ps, cur.value)
    ensures 0 <= r ==> cur == Some(ps[r].name)
    ensures Unique(ps) ==> forall i :: 0 <= i < |ps| && cur == Some(ps[i].name) ==> r == i
  {
    UniqueKeys(ps);
    if cur.None? then -1 else IndexOf(ps, cur.value)
  }

  /** `players.find(p => p.name === k)`: the first player with key `k`. */
  function Find(ps: seq<Player>, k: string): (r: Option<Player>)
    ensures r.Some? <==> HasKey(ps, k)
    ensures r.Some? ==> r.value.name == k && r.value in ps
    ensures Unique(ps) ==> forall i :: 0 <= i < |ps| && ps[i].name == k ==> r == Some(ps[i])
  {
    UniqueKeys(ps);
    var i := IndexOf(ps, k);
    if i == -1 then None else Some(ps[i])
  }

  /** `players.filter(p => p.name !== k)`. */
  function Without(ps: seq<Player>, k: string): seq<Player> {
    if |ps| == 0 then []
    else (if ps[0].name == k then [] else [ps[0]]) + Without(ps[1..], k)
  }

  /** Every entry with key `k` goes, every other entry stays, as often as it
      was there. */
  lemma {:induction false} WithoutCounts(ps: seq<Player>, k: string)
    ensures forall p :: multiset(Without(ps, k))[p] == if p.name == k then 0 else multiset(ps)[p]
  {
    if |ps| > 0 {
      assert ps == [ps[0]] + ps[1..];
      WithoutCounts(ps[1..], k);
    }
  }

  /** Filtering a concatenation concatenates the filtered parts. With
      `WithoutOne` this fixes the result: the kept players stay in their
      order. */
  lemma {:induction false} WithoutAppend(a: seq<Player>, b: seq<Player>, k: string)
    ensures Without(a + b, k) == Without(a, k) + Without(b, k)
  {
    if |a| == 0 {
      assert a + b == b;
    } else {
      var head := if a[0].name == k then [] else [a[0]];
      assert (a + b)[0] == a[0] && (a + b)[1..] == a[1..] + b;
      WithoutAppend(a[1..], b, k);
      assert (head + Without(a[1..], k)) + Without(b, k) == head + (Without(a[1..], k) + Without(b, k));
    }
  }

  /** The filter keeps a lone player exactly when its key differs. */
  lemma WithoutOne(p: Player, k: string)
    ensures Without([p], k) == if p.name == k then [] else [p]
  {
    assert [p][1..] == [];
  }

  /** After the filter, `k` is gone and every other key is present exactly
      when it was before. */
  lemma WithoutKeys(ps: seq<Player>, k: string)
    ensures forall j :: HasKey(Without(ps, k), j) <==> j != k && HasKey(ps, j)
  {
    var r := Without(ps, k);
    WithoutCounts(ps, k);
    forall j ensures HasKey(r, j) <==> j != k && HasKey(ps, j) {
      if HasKey(r, j) {
        var i :| 0 <= i < |r| && r[i].name == j;
        assert r[i] in multiset(r);
        var m :| 0 <= m < |ps| && ps[m] == r[i];
      }
      if j != k && HasKey(ps, j) {
        var i :| 0 <= i < |ps| && ps[i].name == j;
        assert ps[i] in multiset(ps);
        assert ps[i] in multiset(r);
        var m :| 0 <= m < |r| && r[m] == ps[i];
      }
    }
  }

  /** The filter keeps unique keys unique. */
  lemma {:induction false} WithoutUnique(ps: seq<Player>, k: string)
    ensures Unique(ps) ==> Unique(Without(ps, k))
  {
    if |ps| > 0 && Unique(ps) {
      var tail := ps[1..];
      UniqueSplit(ps);
      WithoutUnique(tail, k);
      if ps[0].name != k {
        WithoutKeys(tail, k);
        ConsUnique(ps[0], Without(tail, k));
        assert Without(ps, k) == [ps[0]] + Without(tail, k);
      } else {
        assert Without(ps, k) == Without(tail, k);
      }
    }
  }

  /** A list with unique keys is its first player, whose key is not in the
      rest, followed by a rest with unique keys. */
  lemma UniqueSplit(ps: seq<Player>)
    requires Unique(ps) && |ps| > 0
    ensures Unique(ps[1..]) && !HasKey(ps[1..], ps[0].name)
  {
    var tail := ps[1..];
    forall i, j | 0 <= i < j < |tail| ensures KeyAt(tail, i) != KeyAt(tail, j) {
      UniqueAt(ps, i + 1, j + 1);
    }
    forall i | 0 <= i < |tail| ensures tail[i].name != ps[0].name {
      UniqueAt(ps, 0, i + 1);
    }
  }

  /** Putting a player with a new key in front keeps keys unique. */
  lemma ConsUnique(p: Player, ps: seq<Player>)
    requires Unique(ps) && !HasKey(ps, p.name)
    ensures Unique([p] + ps)
  {
    var r := [p] + ps;
    forall i, j | 0 <= i < j < |r| ensures KeyAt(r, i) != KeyAt(r, j) {
      assert r[j] == ps[j - 1];
      if i > 0 {
        assert r[i] == ps[i - 1];
        UniqueAt(ps, i - 1, j - 1);
      }
    }
  }

  /** Appending a player whose key is new keeps keys unique and adds
      exactly that key. */
  lemma AppendFresh(ps: seq<Player>, p: Player)
    requires !HasKey(ps, p.name)
    ensures Unique(ps) ==> Unique(ps + [p])
    ensures HasKey(ps + [p], p.name)
    ensures forall k :: HasKey(ps + [p], k) <==> HasKey(ps, k) || k == p.name
  {
    var r := ps + [p];
    assert r[|ps|] == p;
    if Unique(ps) {
      forall i, j | 0 <= i < j < |r| ensures KeyAt(r, i) != KeyAt(r, j) {
        if j < |ps| {
          UniqueAt(ps, i, j);
        }
      }
    }
    forall k | HasKey(ps, k) ensures HasKey(r, k) {
      var i :| 0 <= i < |ps| && ps[i].name == k;
      assert r[i] == ps[i];
    }
    forall k | HasKey(r, k) && k != p.name ensures HasKey(ps, k) {
      var i :| 0 <= i < |r| && r[i].name == k;
      assert i < |ps| && ps[i] == r[i];
    }
  }

  /** With unique keys, a present key occurs exactly once. */
  lemma {:induction false} UniqueOccursOnce(ps: seq<Player>, k: string)
    requires Unique(ps)
    ensures Occurrences(ps, k) == if HasKey(ps, k) then 1 else 0
  {
    if |ps| > 0 {
      assert forall j :: 1 <= j < |ps| ==> ps[j] == ps[1..][j - 1];
      UniqueKeys(ps);
      UniqueOccursOnce(ps[1..], k);
      if ps[0].name == k {
        assert !HasKey(ps[1..], k);
      } else if HasKey(ps, k) {
        var i :| 0 <= i < |ps| && ps[i].name == k;
        assert ps[1..][i - 1].name == k;
      }
    }
  }
}

=== FILE: rounds.dfy ===
/** Multi-message scenarios of one lobby: a whole assignment round in each
    variant, a sequence of turns, and a repeated reconnect. */
module Rounds {
  import opened Maybe
  import opened Names
  import opened Roster
  import opened Assoc
  import opened RingAssignment
  import opened RandomDraw
  import opened Session
  import opened Handlers

  /** One `assignCharacter` message of a round: the sender's name, the
      character it names, its `imageUrl` (`None` when absent), and the value
      `Math.random()` returns while it is handled (used by
      wer-bin-ich/server.js only). */
  datatype Submission = Submission(sender: string, character: string, image: Option<string>, draw: Fraction)

  /** The keys of a player list as a set. */
  function Keys(ps: seq<Player>): set<string> {
    set i | 0 <= i < |ps| :: ps[i].name
  }

  /** The sender keys of a list of submissions. */
  function Senders(order: seq<Submission>): set<string> {
    set k | 0 <= k < |order| :: order[k].sender
  }

  predicate DistinctSenders(order: seq<Submission>) {
    forall i, j :: 0 <= i < j < |order| ==> order[i].sender != order[j].sender
  }

  /** An object with no keys is the empty object. */
  lemma NoKeysIsEmpty(t: Table)
    ensures KeySet(t) == {} <==> t == []
  {
    if t != [] {
      assert t[0] in t;
      assert t[0].0 in KeySet(t);
    }
  }

  lemma SendersTail(order: seq<Submission>)
    requires |order| > 0 && DistinctSenders(order)
    ensures Senders(order[1..]) == Senders(order) - {order[0].sender}
    ensures DistinctSenders(order[1..])
  {
    forall x | x in Senders(order) - {order[0].sender} ensures x in Senders(order[1..]) {
      var k :| 0 <= k < |order| && order[k].sender == x;
      assert order[1..][k - 1] == order[k];
    }
    forall x | x in Senders(order[1..]) ensures x in Senders(order) - {order[0].sender} {
      var k :| 0 <= k < |order[1..]| && order[1..][k].sender == x;
      assert order[k + 1] == order[1..][k];
    }
  }

  // ------------------------------------------------------------ server.js round

  /** `assignCharacter` messages of server.js handled in order. */
  function AssignEachRing(s: Store, c: Conn, id: string, order: seq<Submission>): Outcome
    decreases |order|
  {
    if |order| == 0 then Done(s, c, [])
    else
      match HandleAssignRing(s, c, id, order[0].sender, order[0].character, order[0].image)
      case Fault => Fault
      case Done(s', c', out) =>
        match AssignEachRing(s', c', id, order[1..])
        case Fault => Fault
        case Done(s'', c'', out') => Done(s'', c'', out + out')
  }

  /** Every pending assignee is a player with a non-empty key. */
  predicate AssigneesLive(l: Lobby) {
    forall e :: e in l.assignments ==> e.1 != "" && HasKey(l.players, e.1)
  }

  /** A key of a well-formed table whose assignees are all live has a
      pending entry. */
  lemma LiveIsPending(l: Lobby, who: string)
    requires WellFormed(l.assignments) && who in KeySet(l.assignments) && AssigneesLive(l)
    ensures Pending(l, who) && AssigneesPresent(l)
  {
    var e :| e in l.assignments && e.0 == who;
    var i :| 0 <= i < |l.assignments| && l.assignments[i] == e;
    assert Defines(l.assignments, who);
  }

  /** Dropping exactly the entries of one key drops exactly that key. */
  lemma KeySetWithout(t: Table, t': Table, who: string)
    requires forall e :: e in t' <==> e in t && e.0 != who
    ensures KeySet(t') == KeySet(t) - {who}
  {
    forall k | k in KeySet(t) - {who} ensures k in KeySet(t') {
      var e :| e in t && e.0 == k;
      assert e in t';
    }
  }

  /** One submission by a holder of an entry removes exactly that entry. */
  lemma RingAssignStep(s: Store, c: Conn, id: string, who: string, character: string, img: Option<string>)
    requires Valid(s) && id in s && who in KeySet(s[id].assignments) && AssigneesLive(s[id])
    ensures HandleAssignRing(s, c, id, who, character, img).Done?
    ensures var r := HandleAssignRing(s, c, id, who, character, img);
      && id in r.store && Valid(r.store) && AssigneesLive(r.store[id])
      && r.store[id].players == s[id].players
      && KeySet(r.store[id].assignments) == KeySet(s[id].assignments) - {who}
      && (KeySet(r.store[id].assignments) == {} ==>
            r.store[id].phase == Game && r.store[id].currentPlayer == Some(s[id].players[0].name))
  {
    LiveIsPending(s[id], who);
    AssignRingEffect(s, c, id, who, character, img);
    var r := HandleAssignRing(s, c, id, who, character, img);
    KeySetWithout(s[id].assignments, r.store[id].assignments, who);
    NoKeysIsEmpty(r.store[id].assignments);
  }

  /** Once every holder of a pending entry submits exactly once, in any
      order, the table drains and the game starts with the first player. It
      needs every assignee to be a player with a non-empty key: an entry
      naming the key "" is never pending and blocks the round. */
  lemma {:induction false} RingDrain(s: Store, c: Conn, id: string, order: seq<Submission>)
    requires Valid(s) && id in s && AssigneesLive(s[id])
    requires |order| > 0 && DistinctSenders(order)
    requires KeySet(s[id].assignments) == Senders(order)
    ensures AssignEachRing(s, c, id, order).Done?
    ensures id in AssignEachRing(s, c, id, order).store
    ensures var l' := AssignEachRing(s, c, id, order).store[id];
      && l'.phase == Game && l'.currentPlayer == Some(s[id].players[0].name)
      && KeySet(l'.assignments) == {} && l'.players == s[id].players
    decreases |order|
  {
    assert order[0].sender in Senders(order);
    RingAssignStep(s, c, id, order[0].sender, order[0].character, order[0].image);
    var r := HandleAssignRing(s, c, id, order[0].sender, order[0].character, order[0].image);
    SendersTail(order);
    if |order| > 1 {
      assert order[1].sender in Senders(order[1..]);
      RingDrain(r.store, r.conn, id, order[1..]);
      AssignEachRingUnfold(s, c, id, order);
    }
  }

  /** A round whose first submission succeeds ends where the rest of the
      round, started from that submission's state, ends. */
  lemma AssignEachRingUnfold(s: Store, c: Conn, id: string, order: seq<Submission>)
    requires |order| > 0
    requires HandleAssignRing(s, c, id, order[0].sender, order[0].character, order[0].image).Done?
    ensures var r := HandleAssignRing(s, c, id, order[0].sender, order[0].character, order[0].image);
      var rest := AssignEachRing(r.store, r.conn, id, order[1..]);
      && AssignEachRing(s, c, id, order).Done? == rest.Done?
      && (rest.Done? ==> AssignEachRing(s, c, id, order).store == rest.store)
  {
  }

  /** An entry whose assignee is the empty key (a whitespace-only name) is
      never pending, so no submission removes it: every submission either
      throws or leaves that entry and the phase as they were. */
  lemma EmptyAssigneeStep(s: Store, c: Conn, id: string, a: string, who: string, character: string, img: Option<string>)
    requires id in s && Get(s[id].assignments, a) == Some("")
    ensures var r := HandleAssignRing(s, c, id, who, character, img);
      r.Done? ==> id in r.store && Get(r.store[id].assignments, a) == Some("") && r.store[id].phase == s[id].phase
  {
    if Pending(s[id], who) {
      assert who != a;
      AssignRingEffect(s, c, id, who, character, img);
    }
  }

  /** Hence a round whose table holds such an entry never starts the game,
      whatever submissions arrive. */
  lemma {:induction false} EmptyAssigneeStalls(s: Store, c: Conn, id: string, a: string, order: seq<Submission>)
    requires id in s && Get(s[id].assignments, a) == Some("")
    ensures var r := AssignEachRing(s, c, id, order);
      r.Done? ==> id in r.store && Get(r.store[id].assignments, a) == Some("") && r.store[id].phase == s[id].phase
    decreases |order|
  {
    if |order| > 0 {
      EmptyAssigneeStep(s, c, id, a, order[0].sender, order[0].character, order[0].image);
      var r := HandleAssignRing(s, c, id, order[0].sender, order[0].character, order[0].image);
      if r.Done? {
        EmptyAssigneeStalls(r.store, r.conn, id, a, order[1..]);
      }
    }
  }

  /** The ring table has one entry per player key. */
  lemma RingKeys(ps: seq<Player>)
    ensures KeySet(RingAssignments(ps)) == Keys(ps)
  {
    var t := RingAssignments(ps);
    BuildMembers(ps, |ps|);
    forall x | x in Keys(ps) ensures x in KeySet(t) {
      var k :| 0 <= k < |ps| && ps[k].name == x;
      assert Defines(t, ps[k].name);
      var m :| 0 <= m < |t| && t[m].0 == x;
      assert t[m] in t;
    }
    forall x | x in KeySet(t) ensures x in Keys(ps) {
      var e :| e in t && e.0 == x;
      assert HasKey(ps, e.0);
    }
  }

  /** The host's start request in server.js opens a round with one live
      entry per player. */
  lemma RingStartStep(s: Store, c: Conn, id: string, draw: Fraction)
    requires Valid(s) && id in s
    requires forall i :: 0 <= i < |s[id].players| ==> s[id].players[i].name != ""
    ensures HandleStartAssignment(Ring, s, c, id, s[id].host, draw).Done?
    ensures var r := HandleStartAssignment(Ring, s, c, id, s[id].host, draw);
      && id in r.store && Valid(r.store) && AssigneesLive(r.store[id])
      && r.store[id].players == s[id].players
      && KeySet(r.store[id].assignments) == Keys(s[id].players)
  {
    var ps := s[id].players;
    var r := HandleStartAssignment(Ring, s, c, id, s[id].host, draw);
    assert r.store[id].assignments == RingAssignments(ps);
    RingKeys(ps);
    BuildMembers(ps, |ps|);
    forall e | e in r.store[id].assignments ensures e.1 != "" && HasKey(ps, e.1) {
      var k :| 0 <= k < |ps| && ps[k].name == e.1;
    }
  }

  /** server.js: starting the assignment and then letting every player
      submit once, in any order, reaches the game with the first player to
      move, provided no player's key is empty. */
  lemma RingRoundStartsGame(s: Store, c: Conn, id: string, order: seq<Submission>, draw: Fraction)
    requires Valid(s) && id in s
    requires forall i :: 0 <= i < |s[id].players| ==> s[id].players[i].name != ""
    requires DistinctSenders(order) && Senders(order) == Keys(s[id].players)
    ensures HandleStartAssignment(Ring, s, c, id, s[id].host, draw).Done?
    ensures var r := HandleStartAssignment(Ring, s, c, id, s[id].host, draw);
      var r' := AssignEachRing(r.store, r.conn, id, order);
      && r'.Done? && id in r'.store
      && r'.store[id].phase == Game && r'.store[id].currentPlayer == Some(s[id].players[0].name)
      && r'.store[id].assignments == [] && r'.store[id].players == s[id].players
  {
    var ps := s[id].players;
    var j :| 0 <= j < |ps| && ps[j].name == s[id].host;
    assert ps[j].name in Keys(ps);
    RingStartStep(s, c, id, draw);
    var r := HandleStartAssignment(Ring, s, c, id, s[id].host, draw);
    RingDrain(r.store, r.conn, id, order);
    NoKeysIsEmpty(AssignEachRing(r.store, r.conn, id, order).store[id].assignments);
  }

  // ------------------------------------------------- wer-bin-ich/server.js round

  /** `assignCharacter` messages of wer-bin-ich/server.js handled in order,
      each with its own image and its own random draw. */
  function AssignEachDraw(s: Store, c: Conn, id: string, order: seq<Submission>): Outcome
    decreases |order|
  {
    if |order| == 0 then Done(s, c, [])
    else
      var r := HandleAssignDraw(s, c, id, order[0].sender, order[0].character, order[0].image, order[0].draw);
      match AssignEachDraw(r.store, r.conn, id, order[1..])
      case Fault => Fault
      case Done(s'', c'', out') => Done(s'', c'', r.out + out')
  }

  /** Submissions from distinct new senders fill the character object; the
      game starts with the first player exactly when it has as many keys as
      the lobby has players. */
  lemma {:induction false} DrawDrain(s: Store, c: Conn, id: string, order: seq<Submission>)
    requires id in s && |order| > 0 && DistinctSenders(order)
    requires forall k :: 0 <= k < |order| ==> order[k].sender !in s[id].characters
    requires |s[id].characters| + |order| == |s[id].players|
    ensures AssignEachDraw(s, c, id, order).Done?
    ensures id in AssignEachDraw(s, c, id, order).store
    ensures var l' := AssignEachDraw(s, c, id, order).store[id];
      && l'.phase == Game && l'.currentPlayer == Some(s[id].players[0].name)
      && l'.players == s[id].players && |l'.characters| == |s[id].players|
    decreases |order|
  {
    var l := s[id];
    var r := HandleAssignDraw(s, c, id, order[0].sender, order[0].character, order[0].image, order[0].draw);
    var l' := r.store[id];
    assert |l'.characters| == |l.characters| + 1;
    if |order| > 1 {
      forall k | 0 <= k < |order[1..]| ensures order[1..][k].sender !in l'.characters {
        assert order[1..][k] == order[k + 1];
      }
      assert DistinctSenders(order[1..]) by {
        forall i, j | 0 <= i < j < |order[1..]| ensures order[1..][i].sender != order[1..][j].sender {
          assert order[1..][i] == order[i + 1] && order[1..][j] == order[j + 1];
        }
      }
      DrawDrain(r.store, r.conn, id, order[1..]);
    }
  }

  /** wer-bin-ich/server.js: from a lobby with no characters yet, starting
      the assignment and then one submission from each of as many distinct
      senders as there are players reaches the game with the first player. */
  lemma DrawRoundStartsGame(s: Store, c: Conn, id: string, order: seq<Submission>, draw: Fraction)
    requires Valid(s) && id in s && s[id].characters == map[]
    requires DistinctSenders(order) && |order| == |s[id].players|
    ensures HandleStartAssignment(Draw, s, c, id, s[id].host, draw).Done?
    ensures var r := HandleStartAssignment(Draw, s, c, id, s[id].host, draw);
      var r' := AssignEachDraw(r.store, r.conn, id, order);
      && r'.Done? && id in r'.store
      && r'.store[id].phase == Game && r'.store[id].currentPlayer == Some(s[id].players[0].name)
  {
    var r := HandleStartAssignment(Draw, s, c, id, s[id].host, draw);
    assert r.store[id].characters == map[];
    DrawDrain(r.store, r.conn, id, order);
  }

  // ---------------------------------------------------------------------- turns

  /** `nextPlayer` handled k times in a row, with the events of all of them. */
  function Turns(v: Variant, s: Store, c: Conn, id: string, k: nat): Outcome
    decreases k
  {
    if k == 0 then Done(s, c, [])
    else
      match HandleNextPlayer(v, s, c, id)
      case Fault => Fault
      case Done(s', c', out) =>
        match Turns(v, s', c', id, k - 1)
        case Fault => Fault
        case Done(s'', c'', out') => Done(s'', c'', out + out')
  }

  /** The current player after k turns from `cur`, turn by turn. */
  function TurnsFrom(ps: seq<Player>, cur: Option<string>, k: nat): Option<string>
    requires |ps| > 0
    decreases k
  {
    if k == 0 then cur else TurnsFrom(ps, Some(NextInTurn(ps, cur).name), k - 1)
  }

  /** The first of k turns, and the state it leaves for the rest. */
  lemma TurnsUnfold(v: Variant, s: Store, c: Conn, id: string, k: nat) returns (s': Store, c': Conn)
    requires id in s && |s[id].players| > 0 && k > 0
    ensures id in s' && s'[id] == s[id].(currentPlayer := Some(NextInTurn(s[id].players, s[id].currentPlayer).name))
    ensures Turns(v, s, c, id, k).Done? <==> Turns(v, s', c', id, k - 1).Done?
    ensures Turns(v, s, c, id, k).Done? ==> Turns(v, s, c, id, k).store == Turns(v, s', c', id, k - 1).store
  {
    NextPlayerEffect(v, s, c, id);
    var r := HandleNextPlayer(v, s, c, id);
    s', c' := r.store, r.conn;
  }

  /** The turn after the first, composed with the turns from there. */
  lemma TurnsCompose(ps: seq<Player>, l: Lobby, l': Lobby, t: Lobby, k: nat)
    requires |ps| > 0 && k > 0
    requires l' == l.(currentPlayer := Some(NextInTurn(ps, l.currentPlayer).name))
    requires t == l'.(currentPlayer := TurnsFrom(ps, l'.currentPlayer, k - 1))
    ensures t == l.(currentPlayer := TurnsFrom(ps, l.currentPlayer, k))
  {
  }

  /** k `nextPlayer` messages move the turn k times and change nothing else. */
  lemma {:induction false} TurnsFollow(v: Variant, s: Store, c: Conn, id: string, k: nat)
    requires id in s && |s[id].players| > 0
    ensures Turns(v, s, c, id, k).Done? && id in Turns(v, s, c, id, k).store
    ensures Turns(v, s, c, id, k).store[id]
            == s[id].(currentPlayer := TurnsFrom(s[id].players, s[id].currentPlayer, k))
    decreases k
  {
    if k > 0 {
      var s', c' := TurnsUnfold(v, s, c, id, k);
      TurnsFollow(v, s', c', id, k - 1);
      TurnsCompose(s[id].players, s[id], s'[id], Turns(v, s', c', id, k - 1).store[id], k);
    }
  }

  /** The player whose turn follows player i's. */
  function TurnAfterPlayer(ps: seq<Player>, i: nat): Player
    requires i < |ps|
  {
    NextInTurn(ps, Some(ps[i].name))
  }

  /** From every player's turn, the next turn is that player's successor's. */
  ghost predicate TurnOrder(ps: seq<Player>) {
    forall i {:trigger TurnAfterPlayer(ps, i)} :: 0 <= i < |ps| ==> TurnAfterPlayer(ps, i) == ps[Successor(i, |ps|)]
  }

  /** With unique keys the turn passes from each player to the next. */
  lemma TurnStep(ps: seq<Player>)
    requires Unique(ps) && |ps| > 0
    ensures TurnOrder(ps)
  {
    forall i | 0 <= i < |ps| ensures TurnAfterPlayer(ps, i) == ps[Successor(i, |ps|)] {
      assert IndexOfCurrent(ps, Some(ps[i].name)) == i;
    }
  }

  /** k turns from player i land on player (i + k) mod n, for k up to n. */
  lemma {:induction false} TurnsRotate(ps: seq<Player>, i: nat, k: nat)
    requires |ps| > 0 && TurnOrder(ps) && i < |ps| && k <= |ps|
    ensures Wrap(i + k, |ps|) < |ps|
    ensures TurnsFrom(ps, Some(ps[i].name), k) == Some(ps[Wrap(i + k, |ps|)].name)
    decreases k
  {
    if k > 0 {
      var j := Successor(i, |ps|);
      assert TurnAfterPlayer(ps, i) == ps[j];
      assert TurnsFrom(ps, Some(ps[i].name), k) == TurnsFrom(ps, Some(ps[j].name), k - 1);
      TurnsRotate(ps, j, k - 1);
      assert Wrap(j + (k - 1), |ps|) == Wrap(i + k, |ps|);
    }
  }

  /** After as many `nextPlayer` messages as there are players, the turn is
      back where it started and the lobby is as it was. */
  lemma FullRoundReturns(v: Variant, s: Store, c: Conn, id: string, i: nat)
    requires id in s && Unique(s[id].players) && i < |s[id].players|
    requires s[id].currentPlayer == Some(s[id].players[i].name)
    ensures Turns(v, s, c, id, |s[id].players|).Done?
    ensures id in Turns(v, s, c, id, |s[id].players|).store
    ensures Turns(v, s, c, id, |s[id].players|).store[id] == s[id]
  {
    TurnsFollow(v, s, c, id, |s[id].players|);
    TurnStep(s[id].players);
    TurnsRotate(s[id].players, i, |s[id].players|);
  }

  /** With two players the turn alternates between them. */
  lemma TwoPlayersAlternate(v: Variant, s: Store, c: Conn, id: string, i: nat)
    requires id in s && |s[id].players| == 2 && Unique(s[id].players) && i < 2
    requires s[id].currentPlayer == Some(s[id].players[i].name)
    ensures Turns(v, s, c, id, 1).Done? && id in Turns(v, s, c, id, 1).store
    ensures Turns(v, s, c, id, 1).store[id].currentPlayer == Some(s[id].players[1 - i].name)
    ensures Turns(v, s, c, id, 1).store[id].currentPlayer != s[id].currentPlayer
    ensures Turns(v, s, c, id, 2).Done? && id in Turns(v, s, c, id, 2).store
    ensures Turns(v, s, c, id, 2).store[id].currentPlayer == s[id].currentPlayer
  {
    TurnsFollow(v, s, c, id, 1);
    TurnsFollow(v, s, c, id, 2);
    TurnStep(s[id].players);
    TurnsRotate(s[id].players, i, 1);
    TurnsRotate(s[id].players, i, 2);
  }

  // ---------------------------------------------------------------- reconnects

  /** The condition under which `restoreState` in lobby `l` does not throw:
      in Ring, a truthy current player must be listed or be the restoring
      key (the `HandleRestore` contract states this equivalence). */
  predicate RestoreSucceeds(v: Variant, l: Lobby, raw: string) {
    !(v.Ring? && Truthy(l.currentPlayer) && !HasKey(l.players, l.currentPlayer.value)
      && l.currentPlayer.value != Normalize(raw))
  }

  /** After a restore, the restored key is listed, and a current player the
      restore did not trip over is still listed or is that key. */
  lemma RestoreFirst(v: Variant, s: Store, c: Conn, id: string, raw: string)
    requires Valid(s) && id in s && RestoreSucceeds(v, s[id], raw)
    ensures var r := HandleRestore(v, s, c, id, raw);
      && r.Done? && id in r.store && Valid(r.store)
      && HasKey(r.store[id].players, Normalize(raw))
      && r.store[id].currentPlayer == s[id].currentPlayer
      && (v.Ring? && Truthy(s[id].currentPlayer) ==>
            HasKey(r.store[id].players, s[id].currentPlayer.value))
  {
    var key := Normalize(raw);
    var l := s[id];
    if !HasKey(l.players, key) {
      AppendFresh(l.players, Entrant(v, raw));
    }
  }

  /** A restore of a key already listed, in a lobby whose current player is
      listed, changes nothing. */
  lemma RestoreAgain(v: Variant, s: Store, c: Conn, id: string, raw: string)
    requires Valid(s) && id in s && HasKey(s[id].players, Normalize(raw))
    requires v.Ring? && Truthy(s[id].currentPlayer) ==> HasKey(s[id].players, s[id].currentPlayer.value)
    ensures HandleRestore(v, s, c, id, raw).Done?
    ensures HandleRestore(v, s, c, id, raw).store == s
  {
    var p := Entrant(v, raw);
    assert Rejoin(s[id].players, p) == s[id].players;
    var r := HandleRestore(v, s, c, id, raw);
    assert r.Done?;
    assert r.store == s[id := s[id]];
  }

  /** Restoring the same name twice changes nothing the second time: the
      player is listed exactly once, and the socket is attached the same
      way. */
  lemma RestoreTwiceKeepsOneEntry(v: Variant, s: Store, c: Conn, id: string, raw: string)
    requires Valid(s) && id in s && RestoreSucceeds(v, s[id], raw)
    ensures var r := HandleRestore(v, s, c, id, raw);
      var r' := HandleRestore(v, r.store, r.conn, id, raw);
      && r'.Done? && r'.store == r.store && r'.conn == r.conn
      && Occurrences(r'.store[id].players, Normalize(raw)) == 1
  {
    RestoreFirst(v, s, c, id, raw);
    var r := HandleRestore(v, s, c, id, raw);
    RestoreAgain(v, r.store, r.conn, id, raw);
    UniqueOccursOnce(r.store[id].players, Normalize(raw));
  }
}

=== FILE: server.dfy ===
/** The servers' message loop: one inbound message (or a socket's `close`)
    dispatched to its handler, and runs of many messages over many sockets
    starting from the empty lobby store. */
module Server {
  import opened Maybe
  import opened Roster
  import opened Session
  import opened Handlers

  /** The `if (data.type === ...)` chain of server.js:25-236 and
      wer-bin-ich/server.js:25-193, plus the `close` listener. A message of
      any other type matches no branch and changes nothing. */
  function Step(v: Variant, s: Store, c: Conn, m: Msg, o: Oracle): (r: Outcome)
    ensures Valid(s) && r.Done? ==> Valid(r.store)
    ensures v.Draw? ==> r.Done?
    ensures v.Ring? && Valid(s) && r.Fault? ==> m.AssignCharacter? || m.RevealCharacter? || m.RestoreState?
    ensures m.Unrecognised? ==> r == Done(s, c, [])
    ensures (m.LeaveLobby? || m.Close?) && Departs(s, c, m.Close?) && c.playerName == s[c.lobbyId].host ==>
              r.Done? && r.store.Keys == s.Keys - {c.lobbyId}
  {
    match m
    case CreateLobby(raw) => HandleCreateLobby(v, s, o.freshId, raw)
    case JoinLobby(id, raw) => HandleJoinLobby(v, s, c, id, raw)
    case LeaveLobby => HandleDepart(s, c, false)
    case StartAssignment(id, who) =>
      assert Valid(s) && id in s ==> |s[id].players| > 0;
      HandleStartAssignment(v, s, c, id, who, o.draw)
    case AssignCharacter(id, who, character, img) =>
      if v.Ring? then HandleAssignRing(s, c, id, who, character, img)
      else HandleAssignDraw(s, c, id, who, character, img, o.draw)
    case NextPlayer(id) =>
      assert Valid(s) && id in s ==> |s[id].players| > 0;
      HandleNextPlayer(v, s, c, id)
    case RevealCharacter(id, raw) => HandleReveal(v, s, c, id, raw)
    case RestartGame(id, who) => HandleRestart(v, s, c, id, who)
    case RestoreState(id, raw) => HandleRestore(v, s, c, id, raw)
    case Close => HandleDepart(s, c, true)
    case Unrecognised => Done(s, c, [])
  }

  /** The lobby store, the fields of every open socket, and every event
      sent so far in send order. */
  datatype World = World(store: Store, sockets: map<nat, Conn>, sent: seq<Outbound>)

  /** One message on socket `socket`, with the values `Math.random()` would
      supply while it is handled. */
  datatype Input = Input(socket: nat, msg: Msg, oracle: Oracle)

  /** A socket the server has not seen yet carries no fields. */
  function SocketOf(w: World, k: nat): Conn {
    if k in w.sockets then w.sockets[k] else Unattached
  }

  /** The server just after it starts: `lobbies = {}` and no sockets. */
  function Boot(): World {
    World(map[], map[], [])
  }

  /** No input of `ins` arrives on socket `k`. */
  predicate Untouched(ins: seq<Input>, k: nat) {
    forall j :: 0 <= j < |ins| ==> ins[j].socket != k
  }

  /** Messages handled one after another; a closed socket is forgotten.
      `None` when some handler throws. Events are only ever appended to what
      was sent, a socket no message arrives on keeps its fields, and a socket
      whose last message is `close` is gone. */
  function Run(v: Variant, w: World, ins: seq<Input>): (r: Option<World>)
    ensures |ins| == 0 ==> r == Some(w)
    ensures r.Some? ==> w.sent <= r.value.sent
    ensures r.Some? ==> forall k :: k in w.sockets && Untouched(ins, k) ==>
      k in r.value.sockets && r.value.sockets[k] == w.sockets[k]
    ensures r.Some? && |ins| > 0 && ins[|ins| - 1].msg.Close? ==> ins[|ins| - 1].socket !in r.value.sockets
    decreases |ins|
  {
    if |ins| == 0 then Some(w)
    else
      var i := ins[0];
      match Step(v, w.store, SocketOf(w, i.socket), i.msg, i.oracle)
      case Fault => None
      case Done(s', c', out) =>
        var sockets := if i.msg.Close? then w.sockets - {i.socket} else w.sockets[i.socket := c'];
        assert forall k :: Untouched(ins, k) ==> Untouched(ins[1..], k) && k != i.socket;
        Run(v, World(s', sockets, w.sent + out), ins[1..])
  }

  /** Running two batches of messages is running the first and then the
      second from where the first left off; a throw ends the run. */
  lemma {:induction false} RunAppend(v: Variant, w: World, a: seq<Input>, b: seq<Input>)
    ensures Run(v, w, a + b) == if Run(v, w, a).None? then None else Run(v, Run(v, w, a).value, b)
    decreases |a|
  {
    if |a| == 0 {
      assert a + b == b;
    } else {
      var i := a[0];
      assert (a + b)[0] == i && (a + b)[1..] == a[1..] + b;
      var r := Step(v, w.store, SocketOf(w, i.socket), i.msg, i.oracle);
      if r.Done? {
        var sockets := if i.msg.Close? then w.sockets - {i.socket} else w.sockets[i.socket := r.conn];
        RunAppend(v, World(r.store, sockets, w.sent + r.out), a[1..], b);
      }
    }
  }

  /** Every handler keeps the lobby invariant, so every run does. */
  lemma {:induction false} RunPreservesValid(v: Variant, w: World, ins: seq<Input>)
    requires Valid(w.store)
    ensures Run(v, w, ins).Some? ==> Valid(Run(v, w, ins).value.store)
    decreases |ins|
  {
    if |ins| > 0 {
      var i := ins[0];
      var r := Step(v, w.store, SocketOf(w, i.socket), i.msg, i.oracle);
      if r.Done? {
        var sockets := if i.msg.Close? then w.sockets - {i.socket} else w.sockets[i.socket := r.conn];
        RunPreservesValid(v, World(r.store, sockets, w.sent + r.out), ins[1..]);
      }
    }
  }

  /** wer-bin-ich/server.js never throws in a handler. */
  lemma {:induction false} DrawRunNeverFaults(w: World, ins: seq<Input>)
    ensures Run(Draw, w, ins).Some?
    decreases |ins|
  {
    if |ins| > 0 {
      var i := ins[0];
      var r := Step(Draw, w.store, SocketOf(w, i.socket), i.msg, i.oracle);
      var sockets := if i.msg.Close? then w.sockets - {i.socket} else w.sockets[i.socket := r.conn];
      DrawRunNeverFaults(World(r.store, sockets, w.sent + r.out), ins[1..]);
    }
  }

  /** In every reachable state every lobby holds its host, has at least one
      player, and no key twice. */
  lemma ReachableLobbiesHoldTheirHost(v: Variant, ins: seq<Input>)
    ensures Run(v, Boot(), ins).Some? ==>
      forall id :: id in Run(v, Boot(), ins).value.store ==>
        var l := Run(v, Boot(), ins).value.store[id];
        HasKey(l.players, l.host) && |l.players| > 0 && Unique(l.players)
  {
    RunPreservesValid(v, Boot(), ins);
  }
}

=== FILE: session.dfy ===
/** Lobby records, the in-memory lobby store, connections, and the decoded
    inbound messages and outbound events of the two game servers. */
module Session {
  import opened Maybe
  import opened Names
  import opened Roster
  import opened Assoc
  import opened RandomDraw

  /** The two servers share one protocol and differ in a few handlers. */
  datatype Variant =
    | Ring  // server.js: players are {name, displayName}; characters are handed out round a ring
    | Draw  // wer-bin-ich/server.js: players are plain keys; characters go to a randomly drawn player

  /** The stored `phase` string: 'lobby', 'assignment' or 'game'. */
  datatype Phase = InLobby | Assignment | Game

  /** One game room. `assignments` (assigner key to assignee key) exists only
      in server.js; in the other variant it stays empty. */
  datatype Lobby = Lobby(
    players: seq<Player>,
    host: string,
    phase: Phase,
    characters: map<string, string>,
    imageUrls: map<string, string>,
    revealedPlayers: seq<string>,
    currentPlayer: Option<string>,
    assignments: Table)

  /** The `lobbies` object: lobby id to lobby. */
  type Store = map<string, Lobby>

  /** The fields the servers attach to a socket (`ws.lobbyId`,
      `ws.playerName`, `ws.displayName`); all three are set together. */
  datatype Conn =
    | Unattached
    | Attached(lobbyId: string, playerName: string, displayName: Option<string>)

  /** Inbound messages, already decoded from their JSON envelopes, plus the
      socket's `close` event. */
  datatype Msg =
    | CreateLobby(playerName: string)
    | JoinLobby(lobbyId: string, playerName: string)
    | LeaveLobby
    | StartAssignment(lobbyId: string, playerName: string)
    | AssignCharacter(lobbyId: string, playerName: string, character: string, imageUrl: Option<string>)
    | NextPlayer(lobbyId: string)
    | RevealCharacter(lobbyId: string, player: string)
    | RestartGame(lobbyId: string, playerName: string)
    | RestoreState(lobbyId: string, playerName: string)
    | Close
    | Unrecognised

  /** Outbound events. Display-name fields are `None` in the variant whose
      events do not carry them. */
  datatype Event =
    | LobbyCreated(lobbyId: string, playerName: string, displayName: Option<string>, isHost: bool, players: seq<Player>)
    | PlayerJoined(playerName: string, displayName: Option<string>, lobbyId: string, players: seq<Player>, isHost: bool)
    | PlayerLeft(players: seq<Player>, lobbyDeleted: bool)
    | PlayerDisconnected(players: seq<Player>)
    | AssignmentStarted(assignTo: Option<string>, assignToDisplayName: Option<string>)
    | CharacterAssigned(player: string, displayName: Option<string>, character: string, imageUrl: string, players: seq<Player>)
    | GameStarted(starter: string, starterCharacter: Option<string>, starterDisplayName: Option<string>,
                  players: seq<Player>, imageUrls: map<string, string>)
    | NextTurn(currentPlayer: Option<string>, currentCharacter: Option<string>, currentDisplayName: Option<string>,
               players: seq<Player>, revealedPlayers: seq<string>, imageUrls: map<string, string>)
    | CharacterRevealed(currentPlayer: Option<string>, currentDisplayName: Option<string>, revealedCharacter: Option<string>,
                        revealedPlayers: seq<string>, imageUrls: map<string, string>)
    | GameEnded(characters: map<string, string>, imageUrls: map<string, string>, players: seq<Player>, revealedPlayers: seq<string>)
    | Snapshot(lobbyId: string, playerName: string, displayName: Option<string>, isHost: bool, players: seq<Player>,
               phase: Phase, characters: map<string, string>, imageUrls: map<string, string>, revealedPlayers: seq<string>,
               currentPlayer: Option<string>, currentCharacter: Option<string>, currentDisplayName: Option<string>)
    | Error(message: string)

  /** `ws.send` answers the sender; `broadcast` goes to every open socket
      attached to the lobby. */
  datatype Outbound = ToSender(event: Event) | Broadcast(lobbyId: string, event: Event)

  /** The values `Math.random()` supplies to one handler: a new lobby id and
      a draw. */
  datatype Oracle = Oracle(freshId: string, draw: Fraction)

  /** The effect of one handler: the new store, the sender's new socket fields
      and the events in send order; or `Fault` when the handler throws
      (property access on `undefined`), after which nothing is modelled. */
  datatype Outcome = Done(store: Store, conn: Conn, out: seq<Outbound>) | Fault

  const PlaceholderImage: string := "https://cdn-icons-png.flaticon.com/512/747/747376.png"
  const NameTakenMessage: string := "Spielername bereits vergeben"
  const NotFoundMessage: string := "Lobby nicht gefunden"

  /** The player record a typed-in name yields. */
  function Entrant(v: Variant, raw: string): (p: Player)
    ensures p.name == Normalize(raw)
    ensures v.Ring? ==> p.displayName == Trim(raw)
    ensures v.Draw? ==> p.displayName == p.name
  {
    if v.Ring? then Player(Normalize(raw), Trim(raw)) else Player(Normalize(raw), Normalize(raw))
  }

  /** In both variants the shown name normalises back to the player's key. */
  lemma EntrantKey(v: Variant, raw: string)
    ensures Normalize(Entrant(v, raw).displayName) == Entrant(v, raw).name
  {
    NormalizeIdempotent(raw);
  }

  /** The display name a variant's events and sockets carry for a typed-in name. */
  function DisplayFor(v: Variant, raw: string): Option<string> {
    if v.Ring? then Some(Trim(raw)) else None
  }

  /** The socket's `displayName`, `undefined` when unattached. */
  function ConnDisplay(c: Conn): Option<string> {
    if c.Attached? then c.displayName else None
  }

  /** A fresh lobby whose only player is its host. */
  function NewLobby(host: Player): Lobby {
    Lobby([host], host.name, InLobby, map[], map[], [], None, [])
  }

  /** JavaScript truthiness of a possibly missing string. */
  predicate Truthy(k: Option<string>) {
    k.Some? && k.value != ""
  }

  /** Property read on a plain object. */
  function Lookup(m: map<string, string>, k: string): Option<string> {
    if k in m then Some(m[k]) else None
  }

  /** `data.imageUrl || placeholder`: a missing or empty URL becomes the placeholder. */
  function ImageOrDefault(img: Option<string>): (u: string)
    ensures u != ""
    ensures Truthy(img) ==> u == img.value
    ensures !Truthy(img) ==> u == PlaceholderImage
  {
    if Truthy(img) then img.value else PlaceholderImage
  }

  /** What every reachable lobby satisfies: keys are unique, the host is one
      of the players (so the lobby is never empty), and no key has two
      entries in the assignment table. */
  predicate LobbyValid(l: Lobby) {
    Unique(l.players) && HasKey(l.players, l.host) && WellFormed(l.assignments)
  }

  predicate Valid(s: Store) {
    forall id :: id in s ==> LobbyValid(s[id])
  }

  /** Storing a lobby that is valid whenever the store is keeps the store valid. */
  lemma StoreValid(s: Store, id: string, l: Lobby)
    requires Valid(s) ==> LobbyValid(l)
    ensures Valid(s) ==> Valid(s[id := l])
  {
  }

  /** A fresh lobby is valid. */
  lemma NewLobbyValid(host: Player)
    ensures LobbyValid(NewLobby(host))
  {
    assert NewLobby(host).players[0] == host;
  }
}
